=== FILE: README.md ===
# Peek: a verified model of the message, unlock and follow rules

Peek is a "drop a message on the map" application built with Laravel and React.
This project models its rule layer in Dafny and proves properties of the model.

**Messages.** A user may post two messages per calendar day. Other users read
them on a map. The first read of a message by a user is recorded once and bumps
the message's `read_count`; an author cannot read their own message. After a
viewer has read two messages of the same author, the viewer unlocks that
author's profile, permanently and once. The map flags today's "top" messages:
those whose read count reaches the read count of the 10th most-read message of
the day (0 when there are fewer than ten messages).

**Follows.** Users follow each other. A user's message feed is visible only
to users they follow mutually.

**Other pieces.** The model also covers the validation table for a new message
and the client-side store that holds the map markers.

How it is built:

- **`Rules` is the single statement of the message rules.** It works over an
  abstract database state: messages, message reads, unlocks and the
  auto-increment counter. It defines:
  - the invariants the rules keep (`Consistent`): unique ids, the unique
    (user, message) key of `message_reads` and its foreign key, `read_count`
    equal to the number of reads, no self-reads, and unlocks never
    self-referential, unique and earned by two reads;
  - every step as a function of the old state.
- **The source implements these rules twice, and both are modelled
  imperatively over the same mutable `Storage.Tables` object:**
  - `MessageService` on top of `MessageRepository`;
  - the routed `ApiMessageController` and `ApiMapController`.

  Each mutating method is proved to leave the tables in exactly the state the
  `Rules` step gives, and to preserve `Consistent`. So the two paths agree on
  every write. Their replies differ only where the source's do; for example, a
  self-read gets 422 from the service and a default-status 200 from the
  controller.
- **Time is an explicit timestamp `now`.** "Today" is the calendar day
  `DayOf(now)`.
- **SQL orderings are a deterministic descending sort.** A database may break
  ties arbitrarily, so the lemmas prove that the hot threshold is the same for
  every descending ordering of the day's messages.

## Model

| member | source | states |
|---|---|---|
| MessageModel.Today | app/Models/Message.php:35-38 | the today scope keeps exactly the messages whose created_at falls on the given day (multiplicities: MessageModel.TodayMultiplicity) |
| MessageModel.TodayMultiplicity | app/Models/Message.php:35-38 | every row dated that day is kept as often as it occurs, and no other row appears |
| MessageModel.TopToday | app/Models/Message.php:40-46 | topToday returns min(limit, today's count) of today's messages, no row more often than in today's messages, ordered by reads count descending |
| MessageModel.TopTodayIsTop | app/Models/Message.php:43-45 | no message of today left out of topToday has more reads than one it returned |
| MessageModel.ByAuthor | app/Repositories/MessageRepository.php:63 | `where('user_id', u)` keeps exactly u's messages, each row as often as it occurs, and no other row |
| Ordering.SortDesc | app/Models/Message.php:44 | orderByDesc yields a permutation of its input whose keys never increase |
| UserModel.CanPostMessageToday | app/Models/User.php:90-98 | a user may post iff fewer than 2 of their messages are dated today |
| UserModel.MessagesTodayRemaining | app/Models/User.php:100-108 | remaining = max(0, 2 - posted today): it lies in [0,2], is positive iff the user can post, and adds up with the posted count to 2 |
| UserModel.PostedOnlyCountsThatDay | app/Models/User.php:92-95 | the quota count depends only on the messages dated that day |
| UserModel.RemainingIgnoresOtherDays | app/Models/User.php:102-105 | two tables with the same messages on a day give every user the same allowance that day |
| UserModel.ReadIdsOfCreator | app/Models/User.php:110-116 | an id is in the distinct set iff u has a read row for it and c authored that message |
| UserModel.HasReadUsersMessages | app/Models/User.php:110-116 | the distinct count is at most the number of read rows, and zero iff u has read none of c's messages; with the unique key it equals getReadCountByUser (Rules.DistinctReadsEqualRows) |
| UserModel.UnlockedProfiles | app/Models/User.php:69-77 | the unlockedProfiles relation holds exactly the users with an unlocked_profiles row from u |
| Rules.DistinctReadsEqualRows | app/Models/User.php:110-116 | with the unique key on message_reads, the distinct count of hasReadUsersMessages equals the row count of getReadCountByUser |
| Rules.Post | app/Services/MessageService.php:29-48 | over the quota the state is unchanged; otherwise exactly the new message, by the author with read_count 0, is appended and fewer than 2 posts remain |
| Rules.ReadMessage | app/Services/MessageService.php:72-107 | the outcome is a self-read iff the reader is the author, and then nothing changes; otherwise the read row exists afterwards and no unlock is lost |
| Rules.EvaluateUnlock | app/Services/MessageService.php:131-144 | only unlocks change; the pair is unlocked afterwards iff it was before or the users differ and the viewer has at least two reads of the creator's messages; at most one row is added |
| Rules.HotThreshold | app/Repositories/MessageRepository.php:172-179 | 0 with fewer than ten messages today, otherwise the reads count of one of today's messages (which one: Rules.HotThresholdIsRankValue) |
| Rules.BumpReadCount | app/Repositories/MessageRepository.php:76-79 | the increment raises read_count by one on rows with that id and leaves every other row unchanged |
| Rules.MapView | app/Services/MessageService.php:316-335 | one item per message of today; isTopMessage iff read_count >= threshold; userHasRead iff there is a viewer who has a read row |
| Rules.FewerThanTenAllTop | app/Http/Controllers/Api/MapController.php:27-28 | with fewer than ten messages today every item is top; a guest has read none |
| Rules.PostPreservesConsistent | app/Services/MessageService.php:25-48 | posting keeps every invariant: the new message has a fresh id and no reads |
| Rules.ReadPreservesConsistent | app/Services/MessageService.php:72-107 | reading keeps every invariant, including read_count equal to the number of reads and unlocks earned |
| Rules.EvaluateUnlockPreservesConsistent | app/Services/MessageService.php:131-144 | the unlock check keeps every invariant: never an unlock for oneself, never a duplicate, only after two reads |
| Rules.SelfReadChangesNothing | app/Services/MessageService.php:76-83 | the author reading their own message changes no reads, counters or unlocks |
| Rules.ReadKeepsRow | app/Services/MessageService.php:86-91 | a read by someone other than the author keeps the message's row and author, records the read row, and raises read_count by one exactly when the read is new |
| Rules.ReadTwiceCountsOnce | app/Services/MessageService.php:86-91 | two reads by the same user record one row and raise read_count by exactly one in total (none if already read) |
| Rules.ReadReportsUnlock | app/Services/MessageService.php:94-104 | profileUnlocked is true iff the unlock existed before or the viewer now has at least two reads of the author's messages |
| Rules.NewReadAddsOne | app/Repositories/MessageRepository.php:119-126 | a new read of c's message adds exactly one to the viewer's read count of c |
| Rules.ReadsOfCreator | app/Repositories/MessageRepository.php:119-126 | getReadCountByUser counts u's read rows of c's messages: at most the number of rows, zero iff no row of u is for a message of c; Rules.NewReadAddsOne and Rules.DistinctReadsEqualRows relate it to reads and to the distinct count |
| Rules.UnlocksOnlyGrow | app/Repositories/MessageRepository.php:150-165 | unlock rows are only appended: a granted unlock is permanent |
| Rules.PostOutcomeSpec | app/Services/MessageService.php:29-48 | over quota nothing is stored; otherwise exactly one message with the given attributes, a fresh id and read_count 0, and remaining = 1 - posted before |
| Rules.HotThresholdIsRankValue | app/Repositories/MessageRepository.php:172-179 | the threshold is the rank-9 reads count of today's messages: at least ten reach it and at most nine exceed it |
| Rules.HotThresholdIgnoresTies | app/Repositories/MessageRepository.php:172-179 | every descending ordering of today's messages gives the same threshold, or 0 when there are fewer than ten |
| Rules.TopFlagMeansFewerThanTenAhead | app/Services/MessageService.php:332 | with consistent counters a message is top iff fewer than ten of today's messages have strictly more reads |
| Storage.Tables.InsertMessage | app/Repositories/MessageRepository.php:21-27 | Message::create appends one row with the next id and read_count 0 |
| Storage.Tables.FirstOrCreateRead | app/Repositories/MessageRepository.php:104-109 | firstOrCreate inserts the pair only when it is absent; the flag is wasRecentlyCreated |
| Storage.Tables.IncrementReadCount | app/Repositories/MessageRepository.php:78 | the increment updates exactly the rows with that id |
| Storage.Tables.InsertUnlock | app/Repositories/MessageRepository.php:157-162 | one unlocked_profiles row is appended |
| MessageRepository.MessageRepository.Create | app/Repositories/MessageRepository.php:19-28 | stores exactly the given attributes with tag null when absent, a fresh id and read_count 0 |
| MessageRepository.MessageRepository.GetTodayMessages | app/Repositories/MessageRepository.php:35-40 | the today scope of the table: every row dated today as often as it occurs, and no other row |
| MessageRepository.MessageRepository.GetTopMessagesToday | app/Repositories/MessageRepository.php:48-53 | the topToday scope: exactly min(limit, today's count) of today's messages, no row more often than in today's messages, by reads descending, and no message of today left out has more reads than one returned |
| MessageRepository.MessageRepository.GetUserMessagesToday | app/Repositories/MessageRepository.php:61-68 | exactly the user's messages of today, newest first |
| MessageRepository.MessageRepository.IncrementReadCount | app/Repositories/MessageRepository.php:76-79 | raises that message's read_count by one, leaves the others, returns true iff the message exists |
| MessageRepository.MessageRepository.HasUserReadMessage | app/Repositories/MessageRepository.php:88-93 | true iff the pair has a read row, and then the message's reads count is positive |
| MessageRepository.MessageRepository.GetReadCountByUser | app/Repositories/MessageRepository.php:119-126 | at most the number of read rows, zero iff u has no read of c's messages, and equal to hasReadUsersMessages under the unique key |
| MessageRepository.MessageRepository.HasUnlockedProfile | app/Repositories/MessageRepository.php:135-140 | true iff the user is among the viewer's unlockedProfiles |
| MessageRepository.MessageRepository.GetTopMessageThreshold | app/Repositories/MessageRepository.php:172-179 | 0 with fewer than ten messages today, otherwise the rank-9 reads value of today's messages |
| MessageRepository.MessageRepository.MarkAsRead | app/Repositories/MessageRepository.php:88-110 | true the first time for a pair and false after; hasUserReadMessage holds afterwards; never a second row |
| MessageRepository.MessageRepository.UnlockProfile | app/Repositories/MessageRepository.php:135-165 | false and no insert when already unlocked, else one row and true; hasUnlockedProfile holds afterwards |
| MessageService.CreateResult | app/Services/MessageService.php:29-48 | 429 with remaining 0 and the limit message over the quota, 201 with the created message and remaining otherwise |
| MessageService.ReadResult | app/Services/MessageService.php:76-107 | 422 with the own-message text for a self-read, 200 with profileUnlocked and newReadCount otherwise |
| MessageService.MessageService.CreateMessage | app/Services/MessageService.php:25-63 | ends in the state of the posting rule and returns its result; a storage fault gives 500 and no change; keeps the invariant |
| MessageService.MessageService.MarkAsRead | app/Services/MessageService.php:72-122 | ends in the state of the reading rule and returns its result; a storage fault gives 500 and no change; keeps the invariant |
| MessageService.MessageService.CheckAndUnlockProfile | app/Services/MessageService.php:131-144 | nothing for oneself; otherwise the unlock step of the rules |
| MessageService.MessageService.GetRemainingMessages | app/Services/MessageService.php:241-263 | status 200 with remaining = messagesTodayRemaining() for today, in [0,2], positive iff the user can post |
| MessageService.MessageService.GetMapMessages | app/Services/MessageService.php:313-341 | the map view of today: item i carries the id, author and read_count of today's i-th message; isTopMessage iff read_count >= the repository threshold; userHasRead false without a user |
| StoreMessageRequest.Passes | app/Http/Requests/Message/StoreMessageRequest.php:23-26 | content, latitude and longitude fail when absent, null or blank (required); a missing tag passes (nullable); a number is not a string and a string is not a number |
| StoreMessageRequest.Failing | app/Http/Requests/Message/StoreMessageRequest.php:20-28 | the error list names exactly the fields whose rules fail |
| StoreMessageRequest.Validate | app/Http/Requests/Message/StoreMessageRequest.php:20-28 | accepted iff every rule passes: content a non-blank string of at most 500 characters, numeric coordinates within the ranges, tag absent, null or a string of at most 50; the validated tag is present iff a string tag was sent, and is that string |
| StoreMessageRequest.FormRequestKeepsCoordinatesOnGlobe | app/Http/Requests/Message/StoreMessageRequest.php:24-25 | accepted latitudes lie in [-90,90] and longitudes in [-180,180] |
| StoreMessageRequest.WithoutRangesAdmitsMore | app/Http/Controllers/Api/MessageController.php:25-30 | dropping the between rules accepts every request accepted before, with the same attributes |
| ApiMessageController.MessageController.Store | app/Http/Controllers/Api/MessageController.php:14-38 | the quota is checked before validation (429 even for an invalid body); invalid input gives 422 and no change; otherwise the posting rule and 201 with the recomputed remaining |
| ApiMessageController.MessageController.MarkAsRead | app/Http/Controllers/Api/MessageController.php:40-71 | 404 for an unknown message; otherwise the same state and data as the reading rule, with the self-read answer for the author |
| ApiMessageController.MessageController.CheckProfileUnlock | app/Http/Controllers/Api/MessageController.php:73-85 | counting distinct reads and attaching only when absent is the unlock step of the rules |
| ApiMessageController.MessageController.Index | app/Http/Controllers/Api/MessageController.php:87-94 | the today scope of the table: every row dated today as often as it occurs, and no other row |
| ApiMessageController.MessageController.TopToday | app/Http/Controllers/Api/MessageController.php:96-103 | topToday(10): exactly min(10, today's count) of today's messages, no row more often than in today's messages, by reads count descending, and no message of today left out has more reads than one returned |
| ApiMessageController.MessageController.Remaining | app/Http/Controllers/Api/MessageController.php:105-112 | remaining = messagesTodayRemaining() for today, in [0,2], positive iff the user can post |
| ApiMessageController.ReadReplyOf | app/Http/Controllers/Api/MessageController.php:45-50 | the self-read outcome gives the own-message answer, a recorded read its flags |
| ApiMessageController.InlineRulesAcceptOffGlobeLatitude | app/Http/Controllers/Api/MessageController.php:25-30 | the inline rules accept latitude 100, which the form request rejects |
| ApiMessageController.InlineRulesAdmitFormRequest | app/Http/Controllers/Api/MessageController.php:25-30 | every request the form request accepts the inline rules accept with the same attributes |
| ApiMessageController.RepliesAgreeWithService | app/Http/Controllers/Api/MessageController.php:45-50 | for a recorded read both paths report the same flags and status; for a self-read the service says 422 and the controller 200 |
| ApiMessageController.StoreAgreesWithService | app/Http/Controllers/Api/MessageController.php:18-37 | both paths answer 429 over the quota and 201 on success |
| ApiMapController.MapController.GetTopMessageThreshold | app/Http/Controllers/Api/MapController.php:36-44 | the 10th most-read count of today, or 0 with fewer than ten |
| ApiMapController.MapController.GetMessages | app/Http/Controllers/Api/MapController.php:11-34 | the controller's items are exactly the map view the service returns |
| FollowRepository.Without | app/Repositories/FollowRepository.php:34-39 | delete removes every copy of the edge and keeps every other row with its multiplicity; something was removed iff the edge existed |
| FollowRepository.IncomingCount | app/Repositories/FollowRepository.php:113-116 | countFollowers is 0 iff no row points at the user |
| FollowRepository.OutgoingCount | app/Repositories/FollowRepository.php:124-127 | countFollowing is 0 iff no row leaves the user |
| FollowRepository.FollowersOf | app/Repositories/FollowRepository.php:85-91 | getFollowers lists exactly the sources of the rows pointing at the user, as many as countFollowers (one per row: FollowRepository.FollowersMultiplicity) |
| FollowRepository.FollowersMultiplicity | app/Repositories/FollowRepository.php:85-91 | each follower appears in getFollowers exactly as often as their row to the user occurs |
| FollowRepository.FollowingOf | app/Repositories/FollowRepository.php:99-105 | getFollowing lists exactly the targets of the rows leaving the user, as many as countFollowing (one per row: FollowRepository.FollowingMultiplicity) |
| FollowRepository.FollowingMultiplicity | app/Repositories/FollowRepository.php:99-105 | each followee appears in getFollowing exactly as often as the user's row to them occurs |
| FollowRepository.FollowerSet | tests/Feature/Repositories/FollowRepositoryTest.php:178-196 | the distinct followers are exactly the users with a row to u |
| FollowRepository.FollowingSet | tests/Feature/Repositories/FollowRepositoryTest.php:198-216 | the distinct followees are exactly the users u has a row to |
| FollowRepository.IncomingCountIsFollowerCount | app/Repositories/FollowRepository.php:113-116 | without duplicate rows countFollowers is the number of distinct followers |
| FollowRepository.OutgoingCountIsFollowingCount | app/Repositories/FollowRepository.php:124-127 | without duplicate rows countFollowing is the number of distinct followees |
| FollowRepository.WithoutKeepsNoDuplicates | app/Repositories/FollowRepository.php:34-39 | deleting never creates a duplicate row |
| FollowRepository.FollowRepository.IsFollowing | app/Repositories/FollowRepository.php:48-53 | true iff the follower is in the user's follower list and the user in the follower's following list; then both counts are positive |
| FollowRepository.FollowRepository.IsFollowedBy | app/Repositories/FollowRepository.php:62-65 | isFollowedBy(u, f) is the row from f to u, that is f is among u's followers |
| FollowRepository.FollowRepository.IsMutualFollow | app/Repositories/FollowRepository.php:62-77 | mutual iff each user is followed by the other |
| FollowRepository.FollowRepository.Create | app/Repositories/FollowRepository.php:19-25 | appends the row even for a self edge or a duplicate; isFollowing holds afterwards |
| FollowRepository.FollowRepository.Delete | app/Repositories/FollowRepository.php:34-39 | true iff an edge was removed; deleting a missing edge changes nothing; no edge remains |
| FollowRepository.FollowRepository.GetFollowers | app/Repositories/FollowRepository.php:85-91 | the follower list of the current rows: each follower as often as their row occurs, as many entries as countFollowers |
| FollowRepository.FollowRepository.GetFollowing | app/Repositories/FollowRepository.php:99-105 | the followee list of the current rows: each followee as often as the row to them occurs, as many entries as countFollowing |
| FollowRepository.FollowRepository.CountFollowers | app/Repositories/FollowRepository.php:113-116 | zero iff nobody follows the user; the number of distinct followers when no row is repeated |
| FollowRepository.FollowRepository.CountFollowing | app/Repositories/FollowRepository.php:124-127 | zero iff the user follows nobody; the number of distinct followees when no row is repeated |
| FollowRepository.MutualIsSymmetric | tests/Feature/Repositories/FollowRepositoryTest.php:111-131 | isMutualFollow is symmetric |
| FollowService.FollowStep | app/Services/FollowService.php:28-61 | a follow succeeds iff it is not a self-follow and the edge is absent; it adds exactly that edge and is mutual iff the reverse edge exists |
| FollowService.FollowResult | app/Services/FollowService.php:28-61 | 422 with no data for a self-follow ("You cannot follow yourself") or a duplicate ("Already following this user"), 200 with is_following true and is_mutual on success |
| FollowService.FollowKeepsSimple | app/Services/FollowService.php:28-48 | follow never introduces a self edge or a duplicate |
| FollowService.UnfollowKeepsSimple | app/Services/FollowService.php:88 | unfollow never introduces a self edge or a duplicate |
| FollowService.MutualLifecycle | tests/Feature/Repositories/FollowRepositoryTest.php:111-131 | first follow not mutual, the follow back mutual, a repeat rejected, unfollow ends the mutual state |
| FollowService.FollowService.Follow | app/Services/FollowService.php:24-76 | ends in the follow step's rows and returns its result; keeps the graph simple |
| FollowService.FollowService.Unfollow | app/Services/FollowService.php:85-98 | removes the edge if present and always reports success with is_following and is_mutual false |
| FollowService.FollowService.GetFollowStatus | app/Services/FollowService.php:122-139 | is_mutual = is_following and is_followed_by; the counts are the target's |
| FollowService.FollowService.GetFollowers | app/Services/FollowService.php:161-180 | entry i is the repository's i-th follower, as many entries as countFollowers, is_mutual iff the user follows back |
| FollowService.FollowService.GetFollowing | app/Services/FollowService.php:201-220 | entry i is the repository's i-th followee, as many entries as countFollowing, is_mutual iff followed back |
| UserController.Show | app/Http/Controllers/UserController.php:11-19 | only id, name, nickname and bio are returned |
| UserController.ShowHidesCredentials | app/Http/Controllers/UserController.php:11-19 | the profile does not depend on email or password |
| UserController.NewestFirst | app/Http/Controllers/UserController.php:30-33 | all of the user's messages, a permutation of them, ordered by created_at descending |
| UserController.UserController.GetMessages | app/Http/Controllers/UserController.php:21-36 | 403 unless both users follow each other; otherwise a permutation of all the target's messages of any day, newest first |
| UserController.UserController.GetMyMessages | app/Http/Controllers/UserController.php:38-48 | a permutation of all the caller's messages, newest first, with no gate |
| UserController.FeedGateIsSymmetric | app/Http/Controllers/UserController.php:26-28 | a can see b's feed iff b can see a's |
| MapStore.Initial | resources/js/store/mapStore.ts:14-15 | no markers and no selection |
| MapStore.SetMessages | resources/js/store/mapStore.ts:17 | replaces the list wholesale and keeps the selection |
| MapStore.AddMessage | resources/js/store/mapStore.ts:19-22 | the new marker first, the old list after it in order |
| MapStore.SetSelectedMessage | resources/js/store/mapStore.ts:24 | changes only the selection |
| MapStore.UpdateMessageReadCount | resources/js/store/mapStore.ts:26-31 | sets readCount on the markers with that id only; length, order, other fields and the selection are kept |
| MapStore.UpdateIsIdempotent | resources/js/store/mapStore.ts:26-31 | applying the same update twice equals applying it once |
| MapStore.UpdateAfterAdd | resources/js/store/mapStore.ts:19-31 | updating after adding equals adding the updated marker to the updated list |
| MapStore.UpdateOfUnknownIdChangesNothing | resources/js/store/mapStore.ts:26-31 | an update for an id not on the map changes nothing |

## Left out

- Concurrency is not modelled. Every operation is sequential and atomic, so these races are absent:
  - the check-then-insert of `firstOrCreate`;
  - the quota check followed by the create;
  - the check-then-insert of `unlockProfile`.
- MessageService.MessageService.CreateMessage: models a storage exception only as a failure before the first write. A failure part-way through is not modelled.
- MessageService.MessageService.MarkAsRead: same limitation. For example, a read recorded but not counted is not modelled.
- Logging is not modelled.
- The wall clock is replaced by the `now` parameter.
- Calendar days are whole multiples of 86400 seconds in the server's time zone. Daylight-saving days are not modelled.
- Latitude and longitude are reals, not floating-point numbers.
- Eager loading, selected columns and the user object in each item are not modelled.
- The `'Anonymous'` nickname fallback is not modelled.
- The read-only projections of `getTodayMessages`, `getTopMessagesToday` and `getMyMessagesToday` in MessageService are not modelled. This covers their time formatting and the `reads_count` field. The repository queries they call are modelled.
- StoreMessageRequest.Validate: models numbers as JSON numbers only. Numeric strings, which Laravel's `numeric` also accepts, are not modelled.
- StoreMessageRequest.Validate: the global TrimStrings and ConvertEmptyStringsToNull middleware are not modelled. A blank string is treated as Laravel's validator treats it: it fails `required` and skips the other rules.
- The validation error messages of the form request are not modelled.
- The form request's `authorize` always returns true. The model has no authorisation step for posting.
- The Inertia page controllers, the non-Api controllers and the service providers are not modelled.
- The non-Api controllers include the message controller that uses the form request and the service. Both rule tables are modelled; the routed controller uses the inline one.
- The route `/messages/my/today` names a `myMessagesToday` action that the routed Api message controller does not define. That route is not modelled.
- UserController.UserController.GetMessages: the `isMutualFollow` call on the authenticated user is modelled as FollowRepository's `isMutualFollow(viewer, target)`. The User model defines no such method.
- FollowService.FollowService.Unfollow: the boolean returned by the repository's delete is discarded, as in the source.
- MapStore.UpdateMessageReadCount: the count is a natural number, not an arbitrary JavaScript number.
- Guests: the message and map routes carry no auth middleware, so a guest reaches every Api message endpoint. The map endpoint and `getMapMessages` take an optional viewer, and a guest has read nothing. The three members below take a user id, so they model a signed-in caller only.
- ApiMessageController.MessageController.Store: for a guest the source calls `canPostMessageToday` on a null user, which ends in a 500 error; not modelled.
- ApiMessageController.MessageController.MarkAsRead: for a guest the source reads the id of a null user, which ends in a 500 error; not modelled.
- ApiMessageController.MessageController.Remaining: for a guest the source calls `messagesTodayRemaining` on a null user, which ends in a 500 error; not modelled.
- MessageService.MessageService.GetRemainingMessages: the catch branch that answers 500 with remaining 0 is not modelled; the model always answers 200.
- MessageService.MessageService.GetMapMessages: the catch branch that answers 500 with empty data is not modelled.
- FollowService.FollowService.Follow: the catch branch that answers 500 on a storage exception is not modelled.
- FollowService.FollowService.Unfollow: the catch branch that answers 500 on a storage exception is not modelled.
- FollowService.FollowService.GetFollowStatus: the catch branch that answers 500 with empty data is not modelled.
- FollowService.FollowService.GetFollowers: the catch branch that answers 500 with empty data is not modelled; the follower's name, nickname and bio are not modelled either, only the id.
- FollowService.FollowService.GetFollowing: the catch branch that answers 500 with empty data is not modelled; the followee's name, nickname and bio are not modelled either, only the id.
- The follows table's migration is not part of this model. The model assumes the table has no unique key on (follower, following).

=== FILE: api_map_controller.dfy ===
/** The routed map endpoint (app/Http/Controllers/Api/MapController.php). It
    builds its own items and recomputes the threshold for every message;
    the result is proved to be the map view of the rules, which the service's
    getMapMessages also returns. */
module ApiMapController {
  import opened Wrappers
  import opened MessageModel
  import Rules
  import Storage
  import Ordering

  class MapController {
    const tables: Storage.Tables

    constructor (tables: Storage.Tables)
      ensures this.tables == tables
    {
      this.tables := tables;
    }

    /** getTopMessageThreshold: the same ranked query as the repository's. */
    function GetTopMessageThreshold(now: nat): (t: nat)
      reads tables
      ensures |Today(tables.messages, DayOf(now))| > Rules.HotRank ==>
        Ordering.IsRankValue(Today(tables.messages, DayOf(now)), ReadsKey(tables.messageReads), Rules.HotRank, t)
      ensures |Today(tables.messages, DayOf(now))| <= Rules.HotRank ==> t == 0
    {
      var s := tables.State();
      if |Today(s.messages, DayOf(now))| > Rules.HotRank then Rules.HotThresholdIsRankValue(s, DayOf(now)); Rules.HotThreshold(s, DayOf(now))
      else Rules.HotThreshold(s, DayOf(now))
    }

    /** getMessages: one item per message of today, in table order. */
    function GetMessages(viewer: Option<nat>, now: nat): (items: seq<Rules.MapItem>)
      reads tables
      ensures items == Rules.MapView(tables.State(), viewer, DayOf(now))
    {
      var today := Today(tables.messages, DayOf(now));
      var rs := tables.messageReads;
      var threshold := GetTopMessageThreshold(now);
      seq(|today|, i requires 0 <= i < |today| =>
        var m := today[i];
        Rules.MapItem(m.id, m.content, m.latitude, m.longitude, m.readCount, m.userId,
                      viewer.Some? && Read(viewer.value, m.id) in rs,
                      m.readCount >= threshold, m.createdAt))
    }
  }
}

=== FILE: api_message_controller.dfy ===
/** The routed message endpoints (app/Http/Controllers/Api/MessageController.php):
    a second implementation of the message rules that talks to the tables
    directly. Its writes are proved to end in the same state as the rules,
    so it agrees with the service path; only its replies differ. */
module ApiMessageController {
  import opened Wrappers
  import opened MessageModel
  import opened UserModel
  import Rules
  import Ordering
  import Storage
  import StoreMessageRequest
  import MessageService

  /** The rules `store` validates inline: the form request's table without the
      coordinate ranges. */
  const InlineRules: StoreMessageRequest.RuleTable := StoreMessageRequest.RuleTable(500, None, None, 50)

  datatype StoreReply =
    | LimitReached
    | ValidationFailed(errors: seq<StoreMessageRequest.Field>)
    | Stored(message: Message, remaining: nat)

  /** HTTP status of a `store` reply. */
  function StoreStatus(r: StoreReply): nat {
    match r
    case LimitReached => 429
    case ValidationFailed(_) => 422
    case Stored(_, _) => 201
  }

  datatype ReadReply =
    | NotFound
    | OwnMessage
    | ReadRecorded(profileUnlocked: bool, newReadCount: nat)

  /** The reply `markAsRead` gives for each outcome of reading. */
  function ReadReplyOf(o: Rules.ReadOutcome): (r: ReadReply)
    ensures r.OwnMessage? <==> o.SelfRead?
    ensures o.Recorded? ==> r == ReadRecorded(o.profileUnlocked, o.newReadCount)
  {
    match o
    case SelfRead => OwnMessage
    case Recorded(unlocked, count) => ReadRecorded(unlocked, count)
  }

  /** HTTP status of a `markAsRead` reply: the self-read answer keeps the
      default 200 and only says success = false. */
  function ReadStatus(r: ReadReply): nat {
    match r
    case NotFound => 404
    case OwnMessage => 200
    case ReadRecorded(_, _) => 200
  }

  class MessageController {
    const tables: Storage.Tables

    constructor (tables: Storage.Tables)
      ensures this.tables == tables
    {
      this.tables := tables;
    }

    /** store: the quota is checked before the body is validated. */
    method Store(user: nat, input: StoreMessageRequest.Input, now: nat) returns (reply: StoreReply)
      modifies tables
      ensures !CanPostMessageToday(old(tables.messages), user, DayOf(now)) ==>
                reply == LimitReached && tables.State() == old(tables.State())
      ensures CanPostMessageToday(old(tables.messages), user, DayOf(now)) ==>
                match StoreMessageRequest.Validate(InlineRules, input)
                case Invalid(errors) => reply == ValidationFailed(errors) && tables.State() == old(tables.State())
                case Valid(data) =>
                  var post := Rules.Post(old(tables.State()), user, data, now);
                  && tables.State() == post.0
                  && post.1.Posted?
                  && reply == Stored(post.1.message, post.1.remaining)
      ensures Rules.Consistent(old(tables.State())) ==> Rules.Consistent(tables.State())
    {
      ghost var s0 := tables.State();
      var day := DayOf(now);
      if !CanPostMessageToday(tables.messages, user, day) {
        reply := LimitReached;
        return;
      }
      var validation := StoreMessageRequest.Validate(InlineRules, input);
      if validation.Invalid? {
        reply := ValidationFailed(validation.errors);
        return;
      }
      var message := tables.InsertMessage(user, validation.data, now);
      reply := Stored(message, MessagesTodayRemaining(tables.messages, user, day));
      if Rules.Consistent(s0) {
        Rules.PostPreservesConsistent(s0, user, validation.data, now);
      }
    }

    /** markAsRead: 404 for an unknown id (route model binding), the self-read
        answer for the author, otherwise firstOrCreate, an increment only for a
        created row, the unlock check, and the unlock flag and fresh read_count.
        The unique key of message_reads is what the storage guarantees. */
    method MarkAsRead(user: nat, messageId: nat) returns (reply: ReadReply)
      requires Rules.ReadsUnique(tables.messageReads)
      modifies tables
      ensures !Rules.HasMessage(old(tables.State()), messageId) ==>
                reply == NotFound && tables.State() == old(tables.State())
      ensures Rules.HasMessage(old(tables.State()), messageId) ==>
                var read := Rules.ReadMessage(old(tables.State()), user, messageId);
                && tables.State() == read.0
                && reply == ReadReplyOf(read.1)
      ensures Rules.Consistent(old(tables.State())) ==> Rules.Consistent(tables.State())
    {
      ghost var s0 := tables.State();
      if !Rules.HasMessage(tables.State(), messageId) {
        reply := NotFound;
        return;
      }
      var message := Rules.MessageById(tables.State(), messageId);
      if user == message.userId {
        reply := OwnMessage;
        return;
      }
      ghost var j := Rules.IndexFrom(tables.messages, messageId, 0);
      var created := tables.FirstOrCreateRead(user, messageId);
      if created {
        var _ := tables.IncrementReadCount(messageId);
      }
      assert tables.messages[j].id == messageId;
      CheckProfileUnlock(user, message.userId);
      assert tables.messages[j].id == messageId;
      var reloaded := Rules.MessageById(tables.State(), messageId);
      reply := ReadRecorded(Unlock(user, message.userId) in tables.unlocks, reloaded.readCount);
      if Rules.Consistent(s0) {
        Rules.ReadPreservesConsistent(s0, user, messageId);
      }
    }

    /** checkProfileUnlock: counts distinct messages read rather than rows, and
        attaches only when no unlock exists yet; with the unique key on
        message_reads this is the same step as the service's. */
    method CheckProfileUnlock(currentUser: nat, creator: nat)
      requires Rules.ReadsUnique(tables.messageReads)
      modifies tables
      ensures tables.State() == Rules.EvaluateUnlock(old(tables.State()), currentUser, creator)
    {
      if currentUser == creator {
        return;
      }
      var readCount := HasReadUsersMessages(tables.messages, tables.messageReads, currentUser, creator);
      Rules.DistinctReadsEqualRows(tables.messages, tables.messageReads, currentUser, creator);
      if readCount >= 2 && Unlock(currentUser, creator) !in tables.unlocks {
        tables.InsertUnlock(currentUser, creator);
      }
    }

    /** index: today's messages. */
    function Index(now: nat): (r: seq<Message>)
      reads tables
      ensures forall m :: m in r <==> m in tables.messages && DayOf(m.createdAt) == DayOf(now)
      ensures r == Today(tables.messages, DayOf(now))
      ensures forall m :: multiset(r)[m] == if DayOf(m.createdAt) == DayOf(now) then multiset(tables.messages)[m] else 0
    {
      TodayMultiplicity(tables.messages, DayOf(now));
      Today(tables.messages, DayOf(now))
    }

    /** topToday: the ten most-read messages of today. */
    function TopToday(now: nat): (r: seq<Message>)
      reads tables
      ensures |r| == if 10 < |Today(tables.messages, DayOf(now))| then 10 else |Today(tables.messages, DayOf(now))|
      ensures multiset(r) <= multiset(Today(tables.messages, DayOf(now)))
      ensures forall m :: m in r ==> m in tables.messages && DayOf(m.createdAt) == DayOf(now)
      ensures Ordering.SortedDesc(r, ReadsKey(tables.messageReads))
      ensures r == MessageModel.TopToday(tables.messages, tables.messageReads, DayOf(now), 10)
      ensures forall m, x :: m in Today(tables.messages, DayOf(now)) && x in r && m !in r ==>
                ReadsOf(tables.messageReads, m.id) <= ReadsOf(tables.messageReads, x.id)
    {
      forall m, x | m in Today(tables.messages, DayOf(now)) && x in MessageModel.TopToday(tables.messages, tables.messageReads, DayOf(now), 10)
                    && m !in MessageModel.TopToday(tables.messages, tables.messageReads, DayOf(now), 10)
        ensures ReadsOf(tables.messageReads, m.id) <= ReadsOf(tables.messageReads, x.id)
      {
        TopTodayIsTop(tables.messages, tables.messageReads, DayOf(now), 10, m, x);
      }
      MessageModel.TopToday(tables.messages, tables.messageReads, DayOf(now), 10)
    }

    /** remaining */
    function Remaining(user: nat, now: nat): (r: nat)
      reads tables
      ensures r == MessagesTodayRemaining(tables.messages, user, DayOf(now))
      ensures r <= DailyLimit
      ensures r > 0 <==> CanPostMessageToday(tables.messages, user, DayOf(now))
    {
      MessagesTodayRemaining(tables.messages, user, DayOf(now))
    }
  }

  /** The inline rules accept a latitude off the globe that the form request
      rejects. */
  lemma InlineRulesAcceptOffGlobeLatitude()
    ensures var input := StoreMessageRequest.Input(
              Some(StoreMessageRequest.Str("hello")), Some(StoreMessageRequest.Num(100.0)),
              Some(StoreMessageRequest.Num(0.0)), None);
            && StoreMessageRequest.Validate(InlineRules, input).Valid?
            && StoreMessageRequest.Validate(StoreMessageRequest.FormRequestRules, input)
               == StoreMessageRequest.Invalid([StoreMessageRequest.Latitude])
  {
    var input := StoreMessageRequest.Input(
      Some(StoreMessageRequest.Str("hello")), Some(StoreMessageRequest.Num(100.0)),
      Some(StoreMessageRequest.Num(0.0)), None);
    assert !StoreMessageRequest.Blank("hello") by {
      assert !StoreMessageRequest.IsTrimmed("hello"[0]);
    }
    assert StoreMessageRequest.Passes(InlineRules, input, StoreMessageRequest.Content);
    assert StoreMessageRequest.Passes(InlineRules, input, StoreMessageRequest.Latitude);
    assert StoreMessageRequest.Passes(InlineRules, input, StoreMessageRequest.Longitude);
    assert StoreMessageRequest.Passes(InlineRules, input, StoreMessageRequest.Tag);
    assert StoreMessageRequest.Failing(InlineRules, input) == [];
    var form := StoreMessageRequest.FormRequestRules;
    assert StoreMessageRequest.Passes(form, input, StoreMessageRequest.Content);
    assert !StoreMessageRequest.Passes(form, input, StoreMessageRequest.Latitude);
    assert StoreMessageRequest.Passes(form, input, StoreMessageRequest.Longitude);
    assert StoreMessageRequest.Passes(form, input, StoreMessageRequest.Tag);
    assert StoreMessageRequest.Failing(form, input) == [StoreMessageRequest.Latitude];
  }

  /** Whatever the form request accepts, the inline rules accept too, with the
      same attributes. */
  lemma InlineRulesAdmitFormRequest(input: StoreMessageRequest.Input)
    requires StoreMessageRequest.Validate(StoreMessageRequest.FormRequestRules, input).Valid?
    ensures StoreMessageRequest.Validate(InlineRules, input) == StoreMessageRequest.Validate(StoreMessageRequest.FormRequestRules, input)
  {
    StoreMessageRequest.WithoutRangesAdmitsMore(StoreMessageRequest.FormRequestRules, input);
  }

  /** For the same outcome the two paths report the same data and status,
      except for a self-read: the service answers 422, this controller 200. */
  lemma RepliesAgreeWithService(o: Rules.ReadOutcome)
    ensures o.Recorded? ==> ReadStatus(ReadReplyOf(o)) == MessageService.ReadResult(o).status
    ensures o.Recorded? ==> MessageService.ReadResult(o).data
                            == Some(MessageService.ReadData(ReadReplyOf(o).profileUnlocked, ReadReplyOf(o).newReadCount))
    ensures o.SelfRead? ==> ReadStatus(ReadReplyOf(o)) == 200 && MessageService.ReadResult(o).status == 422
  {
  }

  /** For posting, the statuses agree: 429 over the quota and 201 on success. */
  lemma StoreAgreesWithService(o: Rules.PostOutcome)
    ensures var reply := if o.Posted? then Stored(o.message, o.remaining) else LimitReached;
            StoreStatus(reply) == MessageService.CreateResult(o).status
  {
  }
}

=== FILE: follow_repository.dfy ===
/** FollowRepository (app/Repositories/FollowRepository.php): the follows
    table as a directed edge list. The follows migration is not part of this
    model, so the model assumes no unique key: `create` appends even a self
    edge or a duplicate, and only the service keeps both out. */
module FollowRepository {

  /** A row of follows: `followerId` follows `followingId`. */
  datatype Follow = Follow(followerId: nat, followingId: nat)

  /** What `where(follower, following)->delete()` leaves: every other row, in order. */
  function Without(es: seq<Follow>, e: Follow): (r: seq<Follow>)
    ensures forall x :: x in r <==> x in es && x != e
    ensures forall x :: multiset(r)[x] == if x == e then 0 else multiset(es)[x]
    ensures e in es <==> |r| < |es|
    ensures e !in es ==> r == es
  {
    if es == [] then []
    else
      var init, last := es[..|es| - 1], es[|es| - 1];
      assert es == init + [last];
      Without(init, e) + (if last == e then [] else [last])
  }

  /** countFollowers: the rows pointing at u. */
  function IncomingCount(es: seq<Follow>, u: nat): (n: nat)
    ensures n <= |es|
    ensures n == 0 <==> forall i :: 0 <= i < |es| ==> es[i].followingId != u
  {
    if es == [] then 0
    else
      var init, last := es[..|es| - 1], es[|es| - 1];
      assert forall i :: 0 <= i < |init| ==> init[i] == es[i];
      IncomingCount(init, u) + (if last.followingId == u then 1 else 0)
  }

  /** countFollowing: the rows leaving u. */
  function OutgoingCount(es: seq<Follow>, u: nat): (n: nat)
    ensures n <= |es|
    ensures n == 0 <==> forall i :: 0 <= i < |es| ==> es[i].followerId != u
  {
    if es == [] then 0
    else
      var init, last := es[..|es| - 1], es[|es| - 1];
      assert forall i :: 0 <= i < |init| ==> init[i] == es[i];
      OutgoingCount(init, u) + (if last.followerId == u then 1 else 0)
  }

  /** getFollowers: the source of every row pointing at u, in row order. */
  function FollowersOf(es: seq<Follow>, u: nat): (r: seq<nat>)
    ensures |r| == IncomingCount(es, u)
    ensures forall f :: f in r <==> Follow(f, u) in es
  {
    if es == [] then []
    else
      var init, last := es[..|es| - 1], es[|es| - 1];
      assert es == init + [last];
      FollowersOf(init, u) + (if last.followingId == u then [last.followerId] else [])
  }

  /** getFollowing: the target of every row leaving u, in row order. */
  function FollowingOf(es: seq<Follow>, u: nat): (r: seq<nat>)
    ensures |r| == OutgoingCount(es, u)
    ensures forall g :: g in r <==> Follow(u, g) in es
  {
    if es == [] then []
    else
      var init, last := es[..|es| - 1], es[|es| - 1];
      assert es == init + [last];
      FollowingOf(init, u) + (if last.followerId == u then [last.followingId] else [])
  }

  /** getFollowers gives one entry per row: each follower appears as often as
      their row to u does. */
  lemma {:induction false} FollowersMultiplicity(es: seq<Follow>, u: nat)
    ensures forall f :: multiset(FollowersOf(es, u))[f] == multiset(es)[Follow(f, u)]
  {
    if es != [] {
      var init, last := es[..|es| - 1], es[|es| - 1];
      assert es == init + [last];
      FollowersMultiplicity(init, u);
    }
  }

  /** getFollowing gives one entry per row: each followee appears as often as
      u's row to them does. */
  lemma {:induction false} FollowingMultiplicity(es: seq<Follow>, u: nat)
    ensures forall g :: multiset(FollowingOf(es, u))[g] == multiset(es)[Follow(u, g)]
  {
    if es != [] {
      var init, last := es[..|es| - 1], es[|es| - 1];
      assert es == init + [last];
      FollowingMultiplicity(init, u);
    }
  }

  ghost predicate NoDuplicates(es: seq<Follow>) {
    forall i, j :: 0 <= i < j < |es| ==> es[i] != es[j]
  }

  /** The distinct users following u. */
  function FollowerSet(es: seq<Follow>, u: nat): (r: set<nat>)
    ensures forall f :: f in r <==> Follow(f, u) in es
  {
    if es == [] then {}
    else
      var init, last := es[..|es| - 1], es[|es| - 1];
      assert es == init + [last];
      FollowerSet(init, u) + (if last.followingId == u then {last.followerId} else {})
  }

  /** The distinct users u follows. */
  function FollowingSet(es: seq<Follow>, u: nat): (r: set<nat>)
    ensures forall g :: g in r <==> Follow(u, g) in es
  {
    if es == [] then {}
    else
      var init, last := es[..|es| - 1], es[|es| - 1];
      assert es == init + [last];
      FollowingSet(init, u) + (if last.followerId == u then {last.followingId} else {})
  }

  /** With no duplicate rows, countFollowers is the number of distinct followers. */
  lemma {:induction false} IncomingCountIsFollowerCount(es: seq<Follow>, u: nat)
    requires NoDuplicates(es)
    ensures IncomingCount(es, u) == |FollowerSet(es, u)|
  {
    if es != [] {
      var init, last := es[..|es| - 1], es[|es| - 1];
      assert NoDuplicates(init);
      IncomingCountIsFollowerCount(init, u);
      if last.followingId == u {
        forall i | 0 <= i < |init| ensures init[i] != last {
          assert init[i] == es[i];
        }
        assert last == Follow(last.followerId, u);
        assert last.followerId !in FollowerSet(init, u);
      }
    }
  }

  /** With no duplicate rows, countFollowing is the number of distinct followees. */
  lemma {:induction false} OutgoingCountIsFollowingCount(es: seq<Follow>, u: nat)
    requires NoDuplicates(es)
    ensures OutgoingCount(es, u) == |FollowingSet(es, u)|
  {
    if es != [] {
      var init, last := es[..|es| - 1], es[|es| - 1];
      assert NoDuplicates(init);
      OutgoingCountIsFollowingCount(init, u);
      if last.followerId == u {
        forall i | 0 <= i < |init| ensures init[i] != last {
          assert init[i] == es[i];
        }
        assert last == Follow(u, last.followingId);
        assert last.followingId !in FollowingSet(init, u);
      }
    }
  }

  /** Deleting rows never creates a duplicate. */
  lemma {:induction false} WithoutKeepsNoDuplicates(es: seq<Follow>, e: Follow)
    requires NoDuplicates(es)
    ensures NoDuplicates(Without(es, e))
  {
    if es != [] {
      var init, last := es[..|es| - 1], es[|es| - 1];
      assert NoDuplicates(init);
      WithoutKeepsNoDuplicates(init, e);
      if last != e {
        forall i | 0 <= i < |init| ensures init[i] != last {
          assert init[i] == es[i];
        }
        var w := Without(init, e);
        forall i | 0 <= i < |w| ensures w[i] != last {
          assert w[i] in w;
        }
      }
    }
  }

  class FollowRepository {
    var follows: seq<Follow>

    constructor ()
      ensures follows == []
    {
      follows := [];
    }

    /** isFollowing: a row from the follower to the followed user exists. */
    function IsFollowing(followerId: nat, followingId: nat): (r: bool)
      reads this
      ensures r <==> followerId in FollowersOf(follows, followingId)
      ensures r <==> followingId in FollowingOf(follows, followerId)
      ensures r ==> IncomingCount(follows, followingId) > 0 && OutgoingCount(follows, followerId) > 0
    {
      Follow(followerId, followingId) in follows
    }

    /** isFollowedBy(u, f): f follows u, which is the row from f to u. */
    function IsFollowedBy(userId: nat, followerId: nat): (r: bool)
      reads this
      ensures r <==> Follow(followerId, userId) in follows
      ensures r <==> followerId in FollowersOf(follows, userId)
    {
      IsFollowing(followerId, userId)
    }

    /** isMutualFollow: both directions exist. */
    function IsMutualFollow(userId1: nat, userId2: nat): (r: bool)
      reads this
      ensures r <==> IsFollowedBy(userId1, userId2) && IsFollowedBy(userId2, userId1)
    {
      IsFollowing(userId1, userId2) && IsFollowing(userId2, userId1)
    }

    /** create: appends the row, whatever is already there. */
    method Create(followerId: nat, followingId: nat)
      modifies this
      ensures follows == old(follows) + [Follow(followerId, followingId)]
      ensures IsFollowing(followerId, followingId)
    {
      follows := follows + [Follow(followerId, followingId)];
    }

    /** delete: removes every matching row; true iff one was removed. */
    method Delete(followerId: nat, followingId: nat) returns (deleted: bool)
      modifies this
      ensures deleted <==> old(IsFollowing(followerId, followingId))
      ensures follows == Without(old(follows), Follow(followerId, followingId))
      ensures !IsFollowing(followerId, followingId)
      ensures !deleted ==> follows == old(follows)
    {
      var remaining := Without(follows, Follow(followerId, followingId));
      deleted := |remaining| < |follows|;
      follows := remaining;
    }

    /** getFollowers */
    function GetFollowers(userId: nat): (r: seq<nat>)
      reads this
      ensures r == FollowersOf(follows, userId)
      ensures forall f :: f in r <==> IsFollowing(f, userId)
      ensures forall f :: multiset(r)[f] == multiset(follows)[Follow(f, userId)]
      ensures |r| == CountFollowers(userId)
    {
      FollowersMultiplicity(follows, userId);
      FollowersOf(follows, userId)
    }

    /** getFollowing */
    function GetFollowing(userId: nat): (r: seq<nat>)
      reads this
      ensures r == FollowingOf(follows, userId)
      ensures forall g :: g in r <==> IsFollowing(userId, g)
      ensures forall g :: multiset(r)[g] == multiset(follows)[Follow(userId, g)]
      ensures |r| == CountFollowing(userId)
    {
      FollowingMultiplicity(follows, userId);
      FollowingOf(follows, userId)
    }

    /** countFollowers: the rows pointing at the user; zero iff nobody follows
        them, and the number of distinct followers when no row is repeated. */
    function CountFollowers(userId: nat): (n: nat)
      reads this
      ensures n == 0 <==> forall f :: !IsFollowing(f, userId)
      ensures NoDuplicates(follows) ==> n == |FollowerSet(follows, userId)|
    {
      assert NoDuplicates(follows) ==> IncomingCount(follows, userId) == |FollowerSet(follows, userId)| by {
        if NoDuplicates(follows) {
          IncomingCountIsFollowerCount(follows, userId);
        }
      }
      assert IncomingCount(follows, userId) > 0 ==> exists f :: IsFollowing(f, userId) by {
        if IncomingCount(follows, userId) > 0 {
          var i :| 0 <= i < |follows| && follows[i].followingId == userId;
          assert follows[i] == Follow(follows[i].followerId, userId);
          assert IsFollowing(follows[i].followerId, userId);
        }
      }
      assert (exists f :: IsFollowing(f, userId)) ==> IncomingCount(follows, userId) > 0;
      IncomingCount(follows, userId)
    }

    /** countFollowing: the rows leaving the user; zero iff they follow nobody,
        and the number of distinct followees when no row is repeated. */
    function CountFollowing(userId: nat): (n: nat)
      reads this
      ensures n == 0 <==> forall g :: !IsFollowing(userId, g)
      ensures NoDuplicates(follows) ==> n == |FollowingSet(follows, userId)|
    {
      assert NoDuplicates(follows) ==> OutgoingCount(follows, userId) == |FollowingSet(follows, userId)| by {
        if NoDuplicates(follows) {
          OutgoingCountIsFollowingCount(follows, userId);
        }
      }
      assert OutgoingCount(follows, userId) > 0 ==> exists g :: IsFollowing(userId, g) by {
        if OutgoingCount(follows, userId) > 0 {
          var i :| 0 <= i < |follows| && follows[i].followerId == userId;
          assert follows[i] == Follow(userId, follows[i].followingId);
          assert IsFollowing(userId, follows[i].followingId);
        }
      }
      assert (exists g :: IsFollowing(userId, g)) ==> OutgoingCount(follows, userId) > 0;
      OutgoingCount(follows, userId)
    }
  }

  /** Mutual following does not depend on the order of the two users. */
  lemma MutualIsSymmetric(repo: FollowRepository, a: nat, b: nat)
    ensures repo.IsMutualFollow(a, b) == repo.IsMutualFollow(b, a)
  {
  }
}

=== FILE: follow_service.dfy ===
/** FollowService (app/Services/FollowService.php): the follow rules on top of
    the repository. `follow` rejects self-follows and duplicates, which keeps
    the follows table a simple directed graph; `unfollow` always succeeds. */
module FollowService {
  import opened Wrappers
  import opened ServiceResults
  import Graph = FollowRepository

  /** No self edges and no repeated rows. */
  ghost predicate SimpleGraph(es: seq<Graph.Follow>) {
    Graph.NoDuplicates(es) && forall i :: 0 <= i < |es| ==> es[i].followerId != es[i].followingId
  }

  datatype FollowOutcome = SelfFollow | AlreadyFollowing | Followed(isMutual: bool)

  /** The rows after a follow request, and its outcome. */
  function FollowStep(es: seq<Graph.Follow>, a: nat, b: nat): (r: (seq<Graph.Follow>, FollowOutcome))
    ensures r.1.Followed? <==> a != b && Graph.Follow(a, b) !in es
    ensures r.1.Followed? ==> r.0 == es + [Graph.Follow(a, b)] && (r.1.isMutual <==> Graph.Follow(b, a) in es)
    ensures !r.1.Followed? ==> r.0 == es
  {
    if a == b then (es, SelfFollow)
    else if Graph.Follow(a, b) in es then (es, AlreadyFollowing)
    else (es + [Graph.Follow(a, b)], Followed(Graph.Follow(b, a) in es))
  }

  datatype FollowFlags = FollowFlags(isFollowing: bool, isMutual: bool)

  /** The result array of `follow` for each outcome. */
  function FollowResult(o: FollowOutcome): (r: ServiceResult<FollowFlags>)
    ensures r.success <==> r.status == 200
    ensures r.success <==> o.Followed?
    ensures r.success ==> r.data == Some(FollowFlags(true, o.isMutual))
    ensures !o.Followed? ==> r.status == 422 && r.data.None?
    ensures o.SelfFollow? ==> r.message == Some("You cannot follow yourself")
    ensures o.AlreadyFollowing? ==> r.message == Some("Already following this user")
  {
    match o
    case SelfFollow => ServiceResult(false, Some("You cannot follow yourself"), None, 422)
    case AlreadyFollowing => ServiceResult(false, Some("Already following this user"), None, 422)
    case Followed(mutual) => ServiceResult(true, Some("User followed successfully"), Some(FollowFlags(true, mutual)), 200)
  }

  /** follow keeps the graph simple. */
  lemma FollowKeepsSimple(es: seq<Graph.Follow>, a: nat, b: nat)
    requires SimpleGraph(es)
    ensures SimpleGraph(FollowStep(es, a, b).0)
  {
  }

  /** unfollow keeps the graph simple. */
  lemma UnfollowKeepsSimple(es: seq<Graph.Follow>, a: nat, b: nat)
    requires SimpleGraph(es)
    ensures SimpleGraph(Graph.Without(es, Graph.Follow(a, b)))
  {
    Graph.WithoutKeepsNoDuplicates(es, Graph.Follow(a, b));
    var w := Graph.Without(es, Graph.Follow(a, b));
    forall i | 0 <= i < |w| ensures w[i].followerId != w[i].followingId {
      assert w[i] in es;
    }
  }

  /** Two users who do not follow each other: the first follow is not mutual,
      the follow back is, and unfollowing ends the mutual state. */
  lemma MutualLifecycle(es: seq<Graph.Follow>, a: nat, b: nat)
    requires a != b && Graph.Follow(a, b) !in es && Graph.Follow(b, a) !in es
    ensures var s1 := FollowStep(es, a, b);
            var s2 := FollowStep(s1.0, b, a);
            var s3 := Graph.Without(s2.0, Graph.Follow(a, b));
            && s1.1 == Followed(false)
            && s2.1 == Followed(true)
            && FollowStep(s2.0, a, b).1 == AlreadyFollowing
            && Graph.Follow(b, a) in s3 && Graph.Follow(a, b) !in s3
  {
  }

  datatype FollowStatus = FollowStatus(isFollowing: bool, isFollowedBy: bool, isMutual: bool, followersCount: nat, followingCount: nat)

  /** One entry of a followers or following list. */
  datatype FollowEntry = FollowEntry(id: nat, isMutual: bool)

  class FollowService {
    const repo: Graph.FollowRepository

    constructor (repo: Graph.FollowRepository)
      ensures this.repo == repo
    {
      this.repo := repo;
    }

    /** follow */
    method Follow(follower: nat, following: nat) returns (r: ServiceResult<FollowFlags>)
      modifies repo
      ensures var step := FollowStep(old(repo.follows), follower, following);
              repo.follows == step.0 && r == FollowResult(step.1)
      ensures SimpleGraph(old(repo.follows)) ==> SimpleGraph(repo.follows)
    {
      if follower == following {
        r := ServiceResult(false, Some("You cannot follow yourself"), None, 422);
        return;
      }
      if repo.IsFollowing(follower, following) {
        r := ServiceResult(false, Some("Already following this user"), None, 422);
        return;
      }
      repo.Create(follower, following);
      var isMutual := repo.IsMutualFollow(follower, following);
      r := ServiceResult(true, Some("User followed successfully"), Some(FollowFlags(true, isMutual)), 200);
    }

    /** unfollow: success whether or not an edge existed. */
    method Unfollow(follower: nat, following: nat) returns (r: ServiceResult<FollowFlags>)
      modifies repo
      ensures repo.follows == Graph.Without(old(repo.follows), Graph.Follow(follower, following))
      ensures r == ServiceResult(true, Some("User unfollowed successfully"), Some(FollowFlags(false, false)), 200)
      ensures !repo.IsMutualFollow(follower, following)
      ensures SimpleGraph(old(repo.follows)) ==> SimpleGraph(repo.follows)
    {
      var _ := repo.Delete(follower, following);
      r := ServiceResult(true, Some("User unfollowed successfully"), Some(FollowFlags(false, false)), 200);
      if SimpleGraph(old(repo.follows)) {
        UnfollowKeepsSimple(old(repo.follows), follower, following);
      }
    }

    /** getFollowStatus: the relation between the two users, and the counts
        of the user being looked at. */
    function GetFollowStatus(follower: nat, following: nat): (r: ServiceResult<FollowStatus>)
      reads repo
      ensures r.status == 200 && r.data.Some?
      ensures var st := r.data.value;
              && (st.isFollowing <==> Graph.Follow(follower, following) in repo.follows)
              && (st.isFollowedBy <==> Graph.Follow(following, follower) in repo.follows)
              && (st.isMutual <==> st.isFollowing && st.isFollowedBy)
              && st.followersCount == |repo.GetFollowers(following)|
              && st.followingCount == |repo.GetFollowing(following)|
    {
      var isFollowing := repo.IsFollowing(follower, following);
      var isFollowedBy := repo.IsFollowedBy(follower, following);
      ServiceResult(true, None, Some(FollowStatus(isFollowing, isFollowedBy, isFollowing && isFollowedBy,
        repo.CountFollowers(following), repo.CountFollowing(following))), 200)
    }

    /** getFollowers: each follower with whether the follow is mutual. */
    function GetFollowers(user: nat): (r: ServiceResult<seq<FollowEntry>>)
      reads repo
      ensures r.status == 200 && r.data.Some?
      ensures |r.data.value| == repo.CountFollowers(user) == |repo.GetFollowers(user)|
      ensures forall i :: 0 <= i < |r.data.value| ==>
        && r.data.value[i].id == repo.GetFollowers(user)[i]
        && repo.IsFollowing(r.data.value[i].id, user)
        && (r.data.value[i].isMutual <==> repo.IsFollowing(user, r.data.value[i].id))
    {
      var followers := repo.GetFollowers(user);
      assert forall i :: 0 <= i < |followers| ==> followers[i] in followers;
      ServiceResult(true, None, Some(seq(|followers|, i requires 0 <= i < |followers| reads repo =>
        FollowEntry(followers[i], repo.IsMutualFollow(user, followers[i])))), 200)
    }

    /** getFollowing: each followed user with whether the follow is mutual. */
    function GetFollowing(user: nat): (r: ServiceResult<seq<FollowEntry>>)
      reads repo
      ensures r.status == 200 && r.data.Some?
      ensures |r.data.value| == repo.CountFollowing(user) == |repo.GetFollowing(user)|
      ensures forall i :: 0 <= i < |r.data.value| ==>
        && r.data.value[i].id == repo.GetFollowing(user)[i]
        && repo.IsFollowing(user, r.data.value[i].id)
        && (r.data.value[i].isMutual <==> repo.IsFollowing(r.data.value[i].id, user))
    {
      var following := repo.GetFollowing(user);
      assert forall i :: 0 <= i < |following| ==> following[i] in following;
      ServiceResult(true, None, Some(seq(|following|, i requires 0 <= i < |following| reads repo =>
        FollowEntry(following[i], repo.IsMutualFollow(user, following[i])))), 200)
    }
  }
}

=== FILE: map_store.dfy ===
/** The client-side map store (resources/js/store/mapStore.ts): the list of
    map markers and the selected one. Every updater returns a new state. */
module MapStore {
  import opened Wrappers
  import Rules

  datatype MapState = MapState(messages: seq<Rules.MapItem>, selectedMessage: Option<Rules.MapItem>)

  /** The initial state: no markers, nothing selected. */
  function Initial(): (st: MapState)
    ensures st.messages == [] && st.selectedMessage.None?
  {
    MapState([], None)
  }

  /** setMessages: replaces the list, keeps the selection. */
  function SetMessages(st: MapState, messages: seq<Rules.MapItem>): (r: MapState)
    ensures r.messages == messages && r.selectedMessage == st.selectedMessage
  {
    st.(messages := messages)
  }

  /** addMessage: the new marker first, the old list after it in order. */
  function AddMessage(st: MapState, m: Rules.MapItem): (r: MapState)
    ensures |r.messages| == |st.messages| + 1
    ensures r.messages[0] == m && r.messages[1..] == st.messages
    ensures r.selectedMessage == st.selectedMessage
  {
    st.(messages := [m] + st.messages)
  }

  /** setSelectedMessage: changes only the selection. */
  function SetSelectedMessage(st: MapState, m: Option<Rules.MapItem>): (r: MapState)
    ensures r.messages == st.messages && r.selectedMessage == m
  {
    st.(selectedMessage := m)
  }

  /** updateMessageReadCount: the read count of every marker with that id
      becomes `count`; every other marker, every other field, the order and
      the selection stay as they were. */
  function UpdateMessageReadCount(st: MapState, messageId: int, count: nat): (r: MapState)
    ensures |r.messages| == |st.messages|
    ensures forall i :: 0 <= i < |st.messages| ==>
      r.messages[i] == if st.messages[i].id == messageId then st.messages[i].(readCount := count) else st.messages[i]
    ensures r.selectedMessage == st.selectedMessage
  {
    st.(messages := seq(|st.messages|, i requires 0 <= i < |st.messages| =>
      if st.messages[i].id == messageId then st.messages[i].(readCount := count) else st.messages[i]))
  }

  /** Applying the same update twice is applying it once. */
  lemma UpdateIsIdempotent(st: MapState, messageId: int, count: nat)
    ensures UpdateMessageReadCount(UpdateMessageReadCount(st, messageId, count), messageId, count)
         == UpdateMessageReadCount(st, messageId, count)
  {
    var once := UpdateMessageReadCount(st, messageId, count);
    var twice := UpdateMessageReadCount(once, messageId, count);
    assert twice.messages == once.messages;
  }

  /** Updating after adding a marker is adding the updated marker to the
      updated list. */
  lemma UpdateAfterAdd(st: MapState, m: Rules.MapItem, messageId: int, count: nat)
    ensures UpdateMessageReadCount(AddMessage(st, m), messageId, count)
         == AddMessage(UpdateMessageReadCount(st, messageId, count),
                       if m.id == messageId then m.(readCount := count) else m)
  {
    var lhs := UpdateMessageReadCount(AddMessage(st, m), messageId, count);
    var rhs := AddMessage(UpdateMessageReadCount(st, messageId, count),
                          if m.id == messageId then m.(readCount := count) else m);
    assert forall i :: 1 <= i < |lhs.messages| ==> lhs.messages[i] == rhs.messages[i];
    assert lhs.messages == rhs.messages;
  }

  /** An update for an id that is not on the map changes nothing. */
  lemma UpdateOfUnknownIdChangesNothing(st: MapState, messageId: int, count: nat)
    requires forall i :: 0 <= i < |st.messages| ==> st.messages[i].id != messageId
    ensures UpdateMessageReadCount(st, messageId, count) == st
  {
    assert UpdateMessageReadCount(st, messageId, count).messages == st.messages;
  }
}

=== FILE: message_model.dfy ===
/** The Message model (app/Models/Message.php): the message row, the rows that
    refer to it, and its query scopes. "Today" is an explicit day number instead
    of the wall clock. */
module MessageModel {
  import opened Wrappers
  import Ordering

  const SecondsPerDay: nat := 86400

  /** Calendar day of a timestamp, counted in seconds in the server's time zone;
      `whereDate(created_at, d)` keeps the rows whose day is d. */
  function DayOf(t: nat): nat {
    t / SecondsPerDay
  }

  /** A row of the messages table. `readCount` is the stored read_count column. */
  datatype Message = Message(
    id: nat,
    userId: nat,
    content: string,
    latitude: real,
    longitude: real,
    tag: Option<string>,
    readCount: nat,
    createdAt: nat)

  /** The mass-assignable attributes of a new message (the fillable list minus
      user_id, which the creator supplies). It has no id and no read_count, so
      creating a message can set neither. */
  datatype MessageData = MessageData(content: string, latitude: real, longitude: real, tag: Option<string>)

  /** A row of message_reads. */
  datatype Read = Read(userId: nat, messageId: nat)

  /** A row of unlocked_profiles: `userId` has unlocked `unlockedUserId`'s profile. */
  datatype Unlock = Unlock(userId: nat, unlockedUserId: nat)

  /** `whereHas('message', user_id = c)`: the message with this id exists and is c's. */
  predicate AuthorIs(ms: seq<Message>, id: nat, c: nat) {
    exists j :: 0 <= j < |ms| && ms[j].id == id && ms[j].userId == c
  }

  /** The `today` scope: the messages created on `day`, in table order. */
  function Today(ms: seq<Message>, day: nat): (r: seq<Message>)
    ensures forall m :: m in r <==> m in ms && DayOf(m.createdAt) == day
    ensures |r| <= |ms|
  {
    if ms == [] then []
    else
      var last := ms[|ms| - 1];
      assert ms == ms[..|ms| - 1] + [last];
      Today(ms[..|ms| - 1], day) + (if DayOf(last.createdAt) == day then [last] else [])
  }

  /** The today scope keeps every copy of a message dated `day` and drops all
      the others: it neither repeats nor loses rows. */
  lemma {:induction false} TodayMultiplicity(ms: seq<Message>, day: nat)
    ensures forall m :: multiset(Today(ms, day))[m] == if DayOf(m.createdAt) == day then multiset(ms)[m] else 0
  {
    if ms != [] {
      var init, last := ms[..|ms| - 1], ms[|ms| - 1];
      assert ms == init + [last];
      TodayMultiplicity(init, day);
    }
  }

  /** `where('user_id', u)`: the messages of one author, in table order. */
  function ByAuthor(ms: seq<Message>, u: nat): (r: seq<Message>)
    ensures forall m :: m in r <==> m in ms && m.userId == u
    ensures forall m :: multiset(r)[m] == if m.userId == u then multiset(ms)[m] else 0
    ensures |r| <= |ms|
  {
    if ms == [] then []
    else
      var last := ms[|ms| - 1];
      assert ms == ms[..|ms| - 1] + [last];
      ByAuthor(ms[..|ms| - 1], u) + (if last.userId == u then [last] else [])
  }

  /** `withCount('reads')`: the number of message_reads rows for a message id. */
  function ReadsOf(rs: seq<Read>, id: nat): nat {
    if rs == [] then 0
    else ReadsOf(rs[..|rs| - 1], id) + (if rs[|rs| - 1].messageId == id then 1 else 0)
  }

  /** The reads_count of a message, as a sort key. */
  function ReadsKey(rs: seq<Read>): Message -> nat {
    (m: Message) => ReadsOf(rs, m.id)
  }

  /** Newest first: the created_at column as a sort key. */
  function CreatedKey(): Message -> nat {
    (m: Message) => m.createdAt
  }

  /** The `topToday` scope: today's messages ordered by reads_count descending,
      at most `limit` of them. */
  function TopToday(ms: seq<Message>, rs: seq<Read>, day: nat, limit: nat): (r: seq<Message>)
    ensures |r| == if limit < |Today(ms, day)| then limit else |Today(ms, day)|
    ensures multiset(r) <= multiset(Today(ms, day))
    ensures forall m :: m in r ==> m in ms && DayOf(m.createdAt) == day
    ensures Ordering.SortedDesc(r, ReadsKey(rs))
  {
    var ranked := Ordering.SortDesc(Today(ms, day), ReadsKey(rs));
    var n := if limit < |ranked| then limit else |ranked|;
    Ordering.SortedPrefix(ranked, ReadsKey(rs), n);
    assert forall m :: m in ranked[..n] ==> m in multiset(Today(ms, day));
    ranked[..n]
  }

  /** Nothing left out of topToday has more reads than anything it returned. */
  lemma TopTodayIsTop(ms: seq<Message>, rs: seq<Read>, day: nat, limit: nat, m: Message, x: Message)
    requires m in ms && DayOf(m.createdAt) == day
    requires x in TopToday(ms, rs, day, limit) && m !in TopToday(ms, rs, day, limit)
    ensures ReadsOf(rs, m.id) <= ReadsOf(rs, x.id)
  {
    var key := ReadsKey(rs);
    var ranked := Ordering.SortDesc(Today(ms, day), key);
    var n := if limit < |ranked| then limit else |ranked|;
    var top := ranked[..n];
    assert m in multiset(ranked);
    var j :| 0 <= j < |ranked| && ranked[j] == m;
    var i :| 0 <= i < n && top[i] == x;
    assert j >= n;
    assert key(ranked[i]) >= key(ranked[j]);
  }
}

=== FILE: message_repository.dfy ===
/** MessageRepository (app/Repositories/MessageRepository.php): the data
    access the message service goes through. Writes go to the shared tables;
    queries are functions of them. */
module MessageRepository {
  import opened Wrappers
  import opened MessageModel
  import Ordering
  import Rules
  import Storage
  import UserModel

  class MessageRepository {
    const tables: Storage.Tables

    constructor (tables: Storage.Tables)
      ensures this.tables == tables
    {
      this.tables := tables;
    }

    /** create: stores exactly the given attributes (tag null when absent), a
        fresh id and read_count 0, and nothing else. */
    method Create(userId: nat, data: MessageData, now: nat) returns (m: Message)
      modifies tables
      ensures tables.messages == old(tables.messages) + [m]
      ensures m == Message(old(tables.nextId), userId, data.content, data.latitude, data.longitude, data.tag, 0, now)
      ensures (tables.State(), m) == Rules.InsertMessage(old(tables.State()), userId, data, now)
    {
      m := tables.InsertMessage(userId, data, now);
    }

    /** getTodayMessages */
    function GetTodayMessages(day: nat): (r: seq<Message>)
      reads tables
      ensures forall m :: m in r <==> m in tables.messages && DayOf(m.createdAt) == day
      ensures r == Today(tables.messages, day)
      ensures forall m :: multiset(r)[m] == if DayOf(m.createdAt) == day then multiset(tables.messages)[m] else 0
    {
      TodayMultiplicity(tables.messages, day);
      Today(tables.messages, day)
    }

    /** getTopMessagesToday */
    function GetTopMessagesToday(day: nat, limit: nat): (r: seq<Message>)
      reads tables
      ensures |r| == if limit < |Today(tables.messages, day)| then limit else |Today(tables.messages, day)|
      ensures multiset(r) <= multiset(Today(tables.messages, day))
      ensures forall m :: m in r ==> m in tables.messages && DayOf(m.createdAt) == day
      ensures Ordering.SortedDesc(r, ReadsKey(tables.messageReads))
      ensures r == TopToday(tables.messages, tables.messageReads, day, limit)
      ensures forall m, x :: m in Today(tables.messages, day) && x in r && m !in r ==>
                ReadsOf(tables.messageReads, m.id) <= ReadsOf(tables.messageReads, x.id)
    {
      forall m, x | m in Today(tables.messages, day) && x in TopToday(tables.messages, tables.messageReads, day, limit)
                    && m !in TopToday(tables.messages, tables.messageReads, day, limit)
        ensures ReadsOf(tables.messageReads, m.id) <= ReadsOf(tables.messageReads, x.id)
      {
        TopTodayIsTop(tables.messages, tables.messageReads, day, limit, m, x);
      }
      TopToday(tables.messages, tables.messageReads, day, limit)
    }

    /** getUserMessagesToday: exactly the user's messages of that day, newest first. */
    function GetUserMessagesToday(userId: nat, day: nat): (r: seq<Message>)
      reads tables
      ensures forall m :: m in r <==> m in tables.messages && m.userId == userId && DayOf(m.createdAt) == day
      ensures multiset(r) == multiset(Today(ByAuthor(tables.messages, userId), day))
      ensures Ordering.SortedDesc(r, CreatedKey())
    {
      var mine := Today(ByAuthor(tables.messages, userId), day);
      var r := Ordering.SortDesc(mine, CreatedKey());
      assert forall m :: m in r <==> m in multiset(mine);
      r
    }

    /** incrementReadCount: that message's counter goes up by one, every other
        row stays; true iff the message exists. */
    method IncrementReadCount(messageId: nat) returns (ok: bool)
      modifies tables
      ensures ok <==> Rules.HasMessage(old(tables.State()), messageId)
      ensures |tables.messages| == |old(tables.messages)|
      ensures forall j :: 0 <= j < |tables.messages| ==>
        tables.messages[j] == if old(tables.messages[j]).id == messageId
                              then old(tables.messages[j]).(readCount := old(tables.messages[j]).readCount + 1)
                              else old(tables.messages[j])
      ensures (tables.State(), ok) == Rules.IncrementReadCount(old(tables.State()), messageId)
    {
      ok := tables.IncrementReadCount(messageId);
    }

    /** hasUserReadMessage */
    function HasUserReadMessage(userId: nat, messageId: nat): (r: bool)
      reads tables
      ensures r <==> Read(userId, messageId) in tables.messageReads
      ensures r ==> ReadsOf(tables.messageReads, messageId) > 0
    {
      assert Read(userId, messageId) in tables.messageReads ==> ReadsOf(tables.messageReads, messageId) > 0 by {
        if Read(userId, messageId) in tables.messageReads {
          Rules.ReadsOfPositive(tables.messageReads, userId, messageId);
        }
      }
      Rules.HasRead(tables.State(), userId, messageId)
    }

    /** markAsRead: true iff this call created the (user, message) row; the row
        exists afterwards either way and is never duplicated. */
    method MarkAsRead(userId: nat, messageId: nat) returns (isNewRead: bool)
      modifies tables
      ensures isNewRead <==> !Rules.HasRead(old(tables.State()), userId, messageId)
      ensures HasUserReadMessage(userId, messageId)
      ensures Rules.ReadsUnique(old(tables.messageReads)) ==> Rules.ReadsUnique(tables.messageReads)
      ensures (tables.State(), isNewRead) == Rules.RecordRead(old(tables.State()), userId, messageId)
    {
      isNewRead := tables.FirstOrCreateRead(userId, messageId);
    }

    /** getReadCountByUser */
    function GetReadCountByUser(userId: nat, creatorId: nat): (n: nat)
      reads tables
      ensures n <= |tables.messageReads|
      ensures n == 0 <==> forall x :: Read(userId, x) in tables.messageReads ==> !AuthorIs(tables.messages, x, creatorId)
      ensures Rules.ReadsUnique(tables.messageReads) ==>
                n == UserModel.HasReadUsersMessages(tables.messages, tables.messageReads, userId, creatorId)
    {
      assert Rules.ReadsUnique(tables.messageReads) ==>
               Rules.ReadsOfCreator(tables.messages, tables.messageReads, userId, creatorId)
               == UserModel.HasReadUsersMessages(tables.messages, tables.messageReads, userId, creatorId) by {
        if Rules.ReadsUnique(tables.messageReads) {
          Rules.DistinctReadsEqualRows(tables.messages, tables.messageReads, userId, creatorId);
        }
      }
      UserModel.ReadIdsBounded(tables.messages, tables.messageReads, userId, creatorId);
      Rules.ReadsOfCreator(tables.messages, tables.messageReads, userId, creatorId)
    }

    /** hasUnlockedProfile */
    function HasUnlockedProfile(userId: nat, unlockedUserId: nat): (r: bool)
      reads tables
      ensures r <==> unlockedUserId in UserModel.UnlockedProfiles(tables.unlocks, userId)
    {
      Rules.HasUnlocked(tables.State(), userId, unlockedUserId)
    }

    /** unlockProfile: false and no insert when the pair is already unlocked,
        otherwise one new row and true. */
    method UnlockProfile(userId: nat, unlockedUserId: nat) returns (inserted: bool)
      modifies tables
      ensures inserted <==> !Rules.HasUnlocked(old(tables.State()), userId, unlockedUserId)
      ensures HasUnlockedProfile(userId, unlockedUserId)
      ensures tables.unlocks == old(tables.unlocks) + (if inserted then [Unlock(userId, unlockedUserId)] else [])
      ensures (tables.State(), inserted) == Rules.UnlockProfile(old(tables.State()), userId, unlockedUserId)
    {
      inserted := !HasUnlockedProfile(userId, unlockedUserId);
      if inserted {
        tables.InsertUnlock(userId, unlockedUserId);
      }
    }

    /** getTopMessageThreshold */
    function GetTopMessageThreshold(day: nat): (t: nat)
      reads tables
      ensures |Today(tables.messages, day)| <= Rules.HotRank ==> t == 0
      ensures |Today(tables.messages, day)| > Rules.HotRank ==>
                Ordering.IsRankValue(Today(tables.messages, day), ReadsKey(tables.messageReads), Rules.HotRank, t)
    {
      assert |Today(tables.messages, day)| > Rules.HotRank ==>
               Ordering.IsRankValue(Today(tables.messages, day), ReadsKey(tables.messageReads), Rules.HotRank,
                                    Rules.HotThreshold(tables.State(), day)) by {
        if |Today(tables.messages, day)| > Rules.HotRank {
          Rules.HotThresholdIsRankValue(tables.State(), day);
        }
      }
      Rules.HotThreshold(tables.State(), day)
    }
  }
}

=== FILE: message_service.dfy ===
/** MessageService (app/Services/MessageService.php): the service/repository
    implementation of the message rules. Each method returns the result record
    the service builds (success, message, data, status). A storage exception is
    the `fault` flag: the service then answers 500 and, because the model lets
    storage fail only before its first write, nothing has changed. */
module MessageService {
  import opened Wrappers
  import opened MessageModel
  import opened UserModel
  import Rules
  import MessageRepository
  import opened ServiceResults

  datatype CreateData = Remaining(remaining: nat) | Created(message: Message, remaining: nat)

  datatype ReadData = ReadData(profileUnlocked: bool, newReadCount: nat)

  /** What createMessage returns for each outcome of posting. */
  function CreateResult(o: Rules.PostOutcome): (r: ServiceResult<CreateData>)
    ensures r.success <==> r.status == 201
    ensures o.QuotaExceeded? <==> r.status == 429
    ensures r.data.Some? && r.data.value.remaining == (if o.Posted? then o.remaining else 0)
    ensures o.Posted? ==> r.status == 201 && r.data == Some(Created(o.message, o.remaining))
    ensures o.QuotaExceeded? ==> r.message == Some("Daily message limit reached")
  {
    match o
    case QuotaExceeded => ServiceResult(false, Some("Daily message limit reached"), Some(Remaining(0)), 429)
    case Posted(m, remaining) => ServiceResult(true, None, Some(Created(m, remaining)), 201)
  }

  /** What markAsRead returns for each outcome of reading. */
  function ReadResult(o: Rules.ReadOutcome): (r: ServiceResult<ReadData>)
    ensures r.success <==> r.status == 200
    ensures o.SelfRead? <==> r.status == 422
    ensures r.data.Some? <==> o.Recorded?
    ensures o.SelfRead? ==> r.message == Some("Cannot read own message")
  {
    match o
    case SelfRead => ServiceResult(false, Some("Cannot read own message"), None, 422)
    case Recorded(unlocked, count) => ServiceResult(true, None, Some(ReadData(unlocked, count)), 200)
  }

  class MessageService {
    const repo: MessageRepository.MessageRepository

    constructor (repo: MessageRepository.MessageRepository)
      ensures this.repo == repo
    {
      this.repo := repo;
    }

    /** createMessage: 429 with remaining 0 over the quota, otherwise one new
        message and 201 with the recomputed allowance; 500 on a storage fault. */
    method CreateMessage(user: nat, data: MessageData, now: nat, fault: bool) returns (r: ServiceResult<CreateData>)
      modifies repo.tables
      ensures fault ==> (repo.tables.State() == old(repo.tables.State())
                      && r == ServiceResult(false, Some("An error occurred while creating the message"), None, 500))
      ensures !fault ==> var post := Rules.Post(old(repo.tables.State()), user, data, now);
                         repo.tables.State() == post.0 && r == CreateResult(post.1)
      ensures Rules.Consistent(old(repo.tables.State())) ==> Rules.Consistent(repo.tables.State())
    {
      ghost var s0 := repo.tables.State();
      if fault {
        r := ServiceResult(false, Some("An error occurred while creating the message"), None, 500);
        return;
      }
      var day := DayOf(now);
      if !CanPostMessageToday(repo.tables.messages, user, day) {
        r := ServiceResult(false, Some("Daily message limit reached"), Some(Remaining(0)), 429);
        return;
      }
      var message := repo.Create(user, data, now);
      r := ServiceResult(true, None, Some(Created(message, MessagesTodayRemaining(repo.tables.messages, user, day))), 201);
      if Rules.Consistent(s0) {
        Rules.PostPreservesConsistent(s0, user, data, now);
      }
    }

    /** markAsRead: 422 for the author; otherwise record the read, bump the
        counter only for a new read, evaluate the unlock and report it with the
        refreshed read_count; 500 on a storage fault. */
    method MarkAsRead(user: nat, messageId: nat, fault: bool) returns (r: ServiceResult<ReadData>)
      requires Rules.HasMessage(repo.tables.State(), messageId)
      modifies repo.tables
      ensures fault ==> (repo.tables.State() == old(repo.tables.State())
                      && r == ServiceResult(false, Some("An error occurred while marking message as read"), None, 500))
      ensures !fault ==> var read := Rules.ReadMessage(old(repo.tables.State()), user, messageId);
                         repo.tables.State() == read.0 && r == ReadResult(read.1)
      ensures Rules.Consistent(old(repo.tables.State())) ==> Rules.Consistent(repo.tables.State())
    {
      ghost var s0 := repo.tables.State();
      if fault {
        r := ServiceResult(false, Some("An error occurred while marking message as read"), None, 500);
        return;
      }
      var message := Rules.MessageById(repo.tables.State(), messageId);
      if user == message.userId {
        r := ServiceResult(false, Some("Cannot read own message"), None, 422);
        return;
      }
      ghost var j := Rules.IndexFrom(repo.tables.messages, messageId, 0);
      var isNewRead := repo.MarkAsRead(user, messageId);
      if isNewRead {
        var _ := repo.IncrementReadCount(messageId);
      }
      assert repo.tables.messages[j].id == messageId;
      CheckAndUnlockProfile(user, message.userId);
      assert repo.tables.messages[j].id == messageId;
      var refreshed := Rules.MessageById(repo.tables.State(), messageId);
      r := ServiceResult(true, None, Some(ReadData(repo.HasUnlockedProfile(user, message.userId), refreshed.readCount)), 200);
      if Rules.Consistent(s0) {
        Rules.ReadPreservesConsistent(s0, user, messageId);
      }
    }

    /** checkAndUnlockProfile: nothing for oneself; otherwise unlock once the
        viewer's reads of the creator's messages reach two. */
    method CheckAndUnlockProfile(userId: nat, creatorId: nat)
      modifies repo.tables
      ensures repo.tables.State() == Rules.EvaluateUnlock(old(repo.tables.State()), userId, creatorId)
      ensures userId == creatorId ==> repo.tables.State() == old(repo.tables.State())
    {
      if userId == creatorId {
        return;
      }
      var readCount := repo.GetReadCountByUser(userId, creatorId);
      if readCount >= 2 {
        var _ := repo.UnlockProfile(userId, creatorId);
      }
    }

    /** getRemainingMessages */
    function GetRemainingMessages(user: nat, now: nat): (r: ServiceResult<nat>)
      reads repo.tables
      ensures r.status == 200 && r.data.Some? && r.data.value <= DailyLimit
      ensures r.data.value == MessagesTodayRemaining(repo.tables.messages, user, DayOf(now))
      ensures r.data.value > 0 <==> CanPostMessageToday(repo.tables.messages, user, DayOf(now))
    {
      ServiceResult(true, None, Some(MessagesTodayRemaining(repo.tables.messages, user, DayOf(now))), 200)
    }

    /** getMapMessages: today's messages with the viewer's read flag and the
        top flag against the repository's threshold. */
    function GetMapMessages(viewer: Option<nat>, now: nat): (r: ServiceResult<seq<Rules.MapItem>>)
      reads repo.tables
      ensures r.status == 200 && r.data.Some?
      ensures r.data.value == Rules.MapView(repo.tables.State(), viewer, DayOf(now))
      ensures |r.data.value| == |Today(repo.tables.messages, DayOf(now))|
      ensures forall i :: 0 <= i < |r.data.value| ==>
        (r.data.value[i].isTopMessage <==> r.data.value[i].readCount >= repo.GetTopMessageThreshold(DayOf(now)))
      ensures forall i :: 0 <= i < |r.data.value| ==>
        (r.data.value[i].userHasRead <==> viewer.Some? && repo.HasUserReadMessage(viewer.value, r.data.value[i].id))
    {
      ServiceResult(true, None, Some(Rules.MapView(repo.tables.State(), viewer, DayOf(now))), 200)
    }
  }
}

=== FILE: ordering.dfy ===
/** Ranking of sequences by a natural-number key (read counts, timestamps):
    a deterministic descending sort, counting by key, and the "value at rank k"
    that the hot threshold of the map view is built on. */
module Ordering {

  /** Keys never increase from left to right. */
  ghost predicate SortedDesc<T>(s: seq<T>, key: T -> nat) {
    forall i, j :: 0 <= i < j < |s| ==> key(s[i]) >= key(s[j])
  }

  /** Dropping the head of a descending sequence leaves it descending. */
  lemma SortedTail<T>(s: seq<T>, key: T -> nat)
    requires SortedDesc(s, key) && s != []
    ensures SortedDesc(s[1..], key)
  {
    assert forall i :: 0 <= i < |s| - 1 ==> s[1..][i] == s[i + 1];
  }

  /** Prepending an element whose key is at least the head's keeps a sequence
      descending. */
  lemma SortedCons<T>(h: T, t: seq<T>, key: T -> nat)
    requires SortedDesc(t, key)
    requires t != [] ==> key(h) >= key(t[0])
    ensures SortedDesc([h] + t, key)
  {
    var r := [h] + t;
    forall i, j | 0 <= i < j < |r| ensures key(r[i]) >= key(r[j]) {
      if i == 0 {
        assert r[j] == t[j - 1];
        assert key(t[0]) >= key(t[j - 1]) || j == 1;
      } else {
        assert r[i] == t[i - 1] && r[j] == t[j - 1];
      }
    }
  }

  /** Inserts `x` into a descending sequence, before the first element whose key
      does not exceed key(x). */
  function Insert<T>(x: T, s: seq<T>, key: T -> nat): (r: seq<T>)
    requires SortedDesc(s, key)
    ensures |r| == |s| + 1
    ensures multiset(r) == multiset(s) + multiset{x}
    ensures r[0] == x || (s != [] && r[0] == s[0])
    ensures SortedDesc(r, key)
  {
    if s == [] || key(x) >= key(s[0]) then
      SortedCons(x, s, key);
      [x] + s
    else
      SortedTail(s, key);
      var tail := Insert(x, s[1..], key);
      assert s == [s[0]] + s[1..];
      SortedCons(s[0], tail, key);
      [s[0]] + tail
  }

  /** Insertion sort by descending key. The order among equal keys is one fixed
      choice; the lemmas below show which results do not depend on it. */
  function SortDesc<T>(s: seq<T>, key: T -> nat): (r: seq<T>)
    ensures |r| == |s|
    ensures multiset(r) == multiset(s)
    ensures SortedDesc(r, key)
  {
    if s == [] then []
    else
      assert s == [s[0]] + s[1..];
      Insert(s[0], SortDesc(s[1..], key), key)
  }

  /** A prefix of a descending sequence is descending, and holds only elements
      of the sequence. */
  lemma SortedPrefix<T>(s: seq<T>, key: T -> nat, n: nat)
    requires SortedDesc(s, key) && n <= |s|
    ensures SortedDesc(s[..n], key)
    ensures multiset(s[..n]) <= multiset(s)
  {
    assert forall i :: 0 <= i < n ==> s[..n][i] == s[i];
    assert s == s[..n] + s[n..];
  }

  /** Number of elements of `s` whose key is at least `t`. */
  function CountAtLeast<T>(s: seq<T>, key: T -> nat, t: int): (n: nat)
    ensures n <= |s|
  {
    if s == [] then 0
    else (if key(s[0]) >= t then 1 else 0) + CountAtLeast(s[1..], key, t)
  }

  lemma {:induction false} CountConcat<T>(a: seq<T>, b: seq<T>, key: T -> nat, t: int)
    ensures CountAtLeast(a + b, key, t) == CountAtLeast(a, key, t) + CountAtLeast(b, key, t)
  {
    if a == [] {
      assert a + b == b;
    } else {
      assert (a + b)[0] == a[0];
      assert (a + b)[1..] == a[1..] + b;
      CountConcat(a[1..], b, key, t);
    }
  }

  /** Counting by key does not depend on the order of the elements. */
  lemma {:induction false} CountPermutation<T>(a: seq<T>, b: seq<T>, key: T -> nat, t: int)
    requires multiset(a) == multiset(b)
    ensures CountAtLeast(a, key, t) == CountAtLeast(b, key, t)
    decreases |a|
  {
    if a == [] {
      assert |b| == |multiset(b)| == 0;
    } else {
      var x := a[0];
      assert a == [x] + a[1..];
      assert x in multiset(b);
      var i :| 0 <= i < |b| && b[i] == x;
      assert b == b[..i] + ([x] + b[i + 1..]);
      var rest := b[..i] + b[i + 1..];
      assert multiset(rest) == multiset(b) - multiset{x};
      assert multiset(a[1..]) == multiset(rest);
      CountPermutation(a[1..], rest, key, t);
      CountConcat(b[..i], [x] + b[i + 1..], key, t);
      CountConcat(b[..i], b[i + 1..], key, t);
      assert ([x] + b[i + 1..])[1..] == b[i + 1..];
      var one := if key(x) >= t then 1 else 0;
      assert CountAtLeast([x] + b[i + 1..], key, t) == one + CountAtLeast(b[i + 1..], key, t);
      assert CountAtLeast(a, key, t) == one + CountAtLeast(a[1..], key, t);
    }
  }

  /** If the first n elements all reach t, at least n elements reach t. */
  lemma {:induction false} CountLowerBound<T>(s: seq<T>, key: T -> nat, t: int, n: nat)
    requires n <= |s|
    requires forall i :: 0 <= i < n ==> key(s[i]) >= t
    ensures CountAtLeast(s, key, t) >= n
  {
    if n > 0 {
      CountLowerBound(s[1..], key, t, n - 1);
    }
  }

  /** If no element from position n on reaches t, at most n elements reach t. */
  lemma {:induction false} CountUpperBound<T>(s: seq<T>, key: T -> nat, t: int, n: nat)
    requires n <= |s|
    requires forall i :: n <= i < |s| ==> key(s[i]) < t
    ensures CountAtLeast(s, key, t) <= n
  {
    if s != [] {
      if n == 0 {
        CountUpperBound(s[1..], key, t, 0);
      } else {
        CountUpperBound(s[1..], key, t, n - 1);
      }
    }
  }

  /** Raising the bar never lets more elements through. */
  lemma {:induction false} CountAntitone<T>(s: seq<T>, key: T -> nat, t1: int, t2: int)
    requires t1 <= t2
    ensures CountAtLeast(s, key, t2) <= CountAtLeast(s, key, t1)
  {
    if s != [] {
      CountAntitone(s[1..], key, t1, t2);
    }
  }

  /** `v` is the key found at 0-based position k of every descending ordering of
      `s`: at least k+1 elements reach v, at most k elements exceed it. */
  ghost predicate IsRankValue<T>(s: seq<T>, key: T -> nat, k: nat, v: int) {
    CountAtLeast(s, key, v) >= k + 1 && CountAtLeast(s, key, v + 1) <= k
  }

  /** The key at position k of a descending sequence is its rank-k value. */
  lemma SortedRankValue<T>(p: seq<T>, key: T -> nat, k: nat)
    requires SortedDesc(p, key)
    requires k < |p|
    ensures IsRankValue(p, key, k, key(p[k]))
  {
    CountLowerBound(p, key, key(p[k]), k + 1);
    CountUpperBound(p, key, key(p[k]) + 1, k);
  }

  /** A sequence has at most one rank-k value. */
  lemma RankValueUnique<T>(s: seq<T>, key: T -> nat, k: nat, v1: int, v2: int)
    requires IsRankValue(s, key, k, v1) && IsRankValue(s, key, k, v2)
    ensures v1 == v2
  {
    if v1 < v2 {
      CountAntitone(s, key, v1 + 1, v2);
    } else if v2 < v1 {
      CountAntitone(s, key, v2 + 1, v1);
    }
  }

  /** Any descending permutation of `s` has the same key at position k, so the
      tie order chosen by a sort never changes that key. */
  lemma RankValueOfAnyOrdering<T>(s: seq<T>, p: seq<T>, q: seq<T>, key: T -> nat, k: nat)
    requires multiset(p) == multiset(s) && SortedDesc(p, key) && k < |p|
    requires multiset(q) == multiset(s) && SortedDesc(q, key) && k < |q|
    ensures key(p[k]) == key(q[k])
  {
    SortedRankValue(p, key, k);
    SortedRankValue(q, key, k);
    CountPermutation(p, q, key, key(p[k]));
    CountPermutation(p, q, key, key(p[k]) + 1);
    CountPermutation(p, q, key, key(q[k]));
    CountPermutation(p, q, key, key(q[k]) + 1);
    RankValueUnique(q, key, k, key(p[k]), key(q[k]));
  }

  /** A key reaches the rank-k value exactly when at most k elements have a
      strictly larger key. */
  lemma ReachesRankValue<T>(s: seq<T>, key: T -> nat, k: nat, v: int, x: int)
    requires IsRankValue(s, key, k, v)
    ensures x >= v <==> CountAtLeast(s, key, x + 1) <= k
  {
    if x >= v {
      CountAntitone(s, key, v + 1, x + 1);
    } else {
      CountAntitone(s, key, x + 1, v);
    }
  }
}

=== FILE: rules.dfy ===
/** The message rules stated once, over an abstract database state: the four
    tables the core writes (messages, message_reads, unlocked_profiles and the
    auto-increment counter of messages), what the storage guarantees about them,
    the invariants the rules keep, and each step as a function of the old state.
    Both implementations in the source (service plus repository, and the
    routed Api controllers) are proved to end in the state these functions give. */
module Rules {
  import opened Wrappers
  import opened MessageModel
  import opened UserModel
  import Ordering

  /** Distinct reads of a creator's messages after which the profile unlocks. */
  const UnlockThreshold: nat := 2

  /** 0-based position, in today's ranking, of the message whose reads_count is
      the hot threshold (the 10th most-read). */
  const HotRank: nat := 9

  datatype State = State(messages: seq<Message>, messageReads: seq<Read>, unlocks: seq<Unlock>, nextId: nat)

  /** A fresh database; auto-increment ids start at 1. */
  const Empty: State := State([], [], [], 1)

  // ---------------------------------------------------------------- queries

  predicate HasMessage(s: State, id: nat) {
    exists j :: 0 <= j < |s.messages| && s.messages[j].id == id
  }

  /** A message with a read row has a positive reads count. */
  lemma {:induction false} ReadsOfPositive(rs: seq<Read>, u: nat, id: nat)
    requires Read(u, id) in rs
    ensures ReadsOf(rs, id) > 0
  {
    var init, last := rs[..|rs| - 1], rs[|rs| - 1];
    if last != Read(u, id) {
      assert rs == init + [last];
      ReadsOfPositive(init, u, id);
    }
  }

  /** Position of the first message with this id at or after position k. */
  function IndexFrom(ms: seq<Message>, id: nat, k: nat): (j: nat)
    requires exists j :: k <= j < |ms| && ms[j].id == id
    ensures k <= j < |ms| && ms[j].id == id
    decreases |ms| - k
  {
    if ms[k].id == id then k else IndexFrom(ms, id, k + 1)
  }

  /** The row a route or a refresh loads for this id. */
  function MessageById(s: State, id: nat): Message
    requires HasMessage(s, id)
  {
    s.messages[IndexFrom(s.messages, id, 0)]
  }

  /** hasUserReadMessage: a message_reads row exists for the pair. */
  predicate HasRead(s: State, u: nat, id: nat) {
    Read(u, id) in s.messageReads
  }

  /** hasUnlockedProfile: an unlocked_profiles row exists for the pair. */
  predicate HasUnlocked(s: State, u: nat, c: nat) {
    Unlock(u, c) in s.unlocks
  }

  /** getReadCountByUser: the number of u's message_reads rows whose message is c's. */
  function ReadsOfCreator(ms: seq<Message>, rs: seq<Read>, u: nat, c: nat): (n: nat)
    ensures n <= |rs|
    ensures n == 0 <==> forall i :: 0 <= i < |rs| ==> !(rs[i].userId == u && AuthorIs(ms, rs[i].messageId, c))
  {
    if rs == [] then 0
    else
      var last := rs[|rs| - 1];
      assert forall i :: 0 <= i < |rs| - 1 ==> rs[..|rs| - 1][i] == rs[i];
      ReadsOfCreator(ms, rs[..|rs| - 1], u, c) + (if last.userId == u && AuthorIs(ms, last.messageId, c) then 1 else 0)
  }

  /** getTopMessageThreshold: the reads_count at position 9 of today's messages
      ordered by reads_count descending, or 0 when there are fewer than ten. */
  function HotThreshold(s: State, day: nat): (t: nat)
    ensures |Today(s.messages, day)| <= HotRank ==> t == 0
    ensures |Today(s.messages, day)| > HotRank ==>
              exists m :: m in Today(s.messages, day) && t == ReadsOf(s.messageReads, m.id)
  {
    var ranked := Ordering.SortDesc(Today(s.messages, day), ReadsKey(s.messageReads));
    if |ranked| > HotRank then
      assert ranked[HotRank] in multiset(Today(s.messages, day));
      ReadsOf(s.messageReads, ranked[HotRank].id)
    else 0
  }

  // ------------------------------------------------------------- invariants

  ghost predicate IdsUnique(ms: seq<Message>) {
    forall i, j :: 0 <= i < j < |ms| ==> ms[i].id != ms[j].id
  }

  ghost predicate IdsBelow(ms: seq<Message>, n: nat) {
    forall i :: 0 <= i < |ms| ==> ms[i].id < n
  }

  ghost predicate ReadsUnique(rs: seq<Read>) {
    forall i, j :: 0 <= i < j < |rs| ==> rs[i] != rs[j]
  }

  ghost predicate UnlocksUnique(us: seq<Unlock>) {
    forall i, j :: 0 <= i < j < |us| ==> us[i] != us[j]
  }

  /** What the storage itself guarantees: auto-increment message ids, the unique
      (user_id, message_id) key of message_reads and its foreign key to messages. */
  ghost predicate WellFormed(s: State) {
    && IdsUnique(s.messages)
    && IdsBelow(s.messages, s.nextId)
    && ReadsUnique(s.messageReads)
    && (forall i :: 0 <= i < |s.messageReads| ==> HasMessage(s, s.messageReads[i].messageId))
  }

  /** read_count caches the number of reads of the message. */
  ghost predicate CountersMatch(s: State) {
    forall j :: 0 <= j < |s.messages| ==> s.messages[j].readCount == ReadsOf(s.messageReads, s.messages[j].id)
  }

  /** Nobody has a read of their own message. */
  ghost predicate NoSelfReads(s: State) {
    forall i, j :: 0 <= i < |s.messageReads| && 0 <= j < |s.messages| && s.messages[j].id == s.messageReads[i].messageId ==>
      s.messages[j].userId != s.messageReads[i].userId
  }

  /** Every unlock is between two different users, was earned by two reads, and
      is recorded once. */
  ghost predicate UnlocksEarned(s: State) {
    && UnlocksUnique(s.unlocks)
    && forall i :: 0 <= i < |s.unlocks| ==>
         && s.unlocks[i].userId != s.unlocks[i].unlockedUserId
         && ReadsOfCreator(s.messages, s.messageReads, s.unlocks[i].userId, s.unlocks[i].unlockedUserId) >= UnlockThreshold
  }

  /** The invariant every completed operation keeps. */
  ghost predicate Consistent(s: State) {
    WellFormed(s) && CountersMatch(s) && NoSelfReads(s) && UnlocksEarned(s)
  }

  // ------------------------------------------------------------- primitives

  /** Message::create with the fillable attributes: the next id, read_count 0,
      created now. */
  function InsertMessage(s: State, author: nat, data: MessageData, now: nat): (State, Message) {
    var m := Message(s.nextId, author, data.content, data.latitude, data.longitude, data.tag, 0, now);
    (s.(messages := s.messages + [m], nextId := s.nextId + 1), m)
  }

  /** MessageRead::firstOrCreate; the flag is wasRecentlyCreated. */
  function RecordRead(s: State, u: nat, id: nat): (State, bool) {
    if Read(u, id) in s.messageReads then (s, false)
    else (s.(messageReads := s.messageReads + [Read(u, id)]), true)
  }

  /** `where('id', id)->increment('read_count')` on the messages table. */
  function BumpReadCount(ms: seq<Message>, id: nat): (r: seq<Message>)
    ensures |r| == |ms|
    ensures forall j :: 0 <= j < |ms| ==>
      r[j] == if ms[j].id == id then ms[j].(readCount := ms[j].readCount + 1) else ms[j]
  {
    seq(|ms|, j requires 0 <= j < |ms| =>
      if ms[j].id == id then ms[j].(readCount := ms[j].readCount + 1) else ms[j])
  }

  /** incrementReadCount: the flag says whether any row was affected. */
  function IncrementReadCount(s: State, id: nat): (State, bool) {
    (s.(messages := BumpReadCount(s.messages, id)), HasMessage(s, id))
  }

  /** An unconditional insert into unlocked_profiles (attach). */
  function InsertUnlock(s: State, u: nat, c: nat): State {
    s.(unlocks := s.unlocks + [Unlock(u, c)])
  }

  /** unlockProfile: insert unless the pair is already there; true iff inserted. */
  function UnlockProfile(s: State, u: nat, c: nat): (State, bool) {
    if HasUnlocked(s, u, c) then (s, false) else (InsertUnlock(s, u, c), true)
  }

  /** checkAndUnlockProfile: never for oneself; otherwise unlock once the viewer
      has two reads of the creator's messages. */
  function EvaluateUnlock(s: State, u: nat, c: nat): (r: State)
    ensures r.messages == s.messages && r.messageReads == s.messageReads && r.nextId == s.nextId
    ensures HasUnlocked(r, u, c) <==>
              HasUnlocked(s, u, c) || (u != c && ReadsOfCreator(s.messages, s.messageReads, u, c) >= UnlockThreshold)
    ensures forall x :: x in s.unlocks ==> x in r.unlocks
    ensures |r.unlocks| <= |s.unlocks| + 1
  {
    if u == c then s
    else if ReadsOfCreator(s.messages, s.messageReads, u, c) >= UnlockThreshold then UnlockProfile(s, u, c).0
    else s
  }

  // ------------------------------------------------------------- operations

  datatype PostOutcome = QuotaExceeded | Posted(message: Message, remaining: nat)

  /** Posting: the quota check, then the insert and the recomputed allowance. */
  function Post(s: State, author: nat, data: MessageData, now: nat): (r: (State, PostOutcome))
    ensures r.1.QuotaExceeded? <==> !CanPostMessageToday(s.messages, author, DayOf(now))
    ensures r.1.QuotaExceeded? ==> r.0 == s
    ensures r.1.Posted? ==>
              && r.0.messages == s.messages + [r.1.message]
              && r.1.message.userId == author && r.1.message.readCount == 0
              && r.1.remaining < DailyLimit
  {
    var day := DayOf(now);
    if !CanPostMessageToday(s.messages, author, day) then (s, QuotaExceeded)
    else
      var ins := InsertMessage(s, author, data, now);
      assert ins.0.messages[..|ins.0.messages| - 1] == s.messages;
      (ins.0, Posted(ins.1, MessagesTodayRemaining(ins.0.messages, author, day)))
  }

  datatype ReadOutcome = SelfRead | Recorded(profileUnlocked: bool, newReadCount: nat)

  /** Reading: reject the author; otherwise record the read, bump the counter
      only for a new read, evaluate the unlock, and report the unlock and the
      refreshed counter. */
  function ReadMessage(s: State, u: nat, id: nat): (r: (State, ReadOutcome))
    requires HasMessage(s, id)
    ensures r.1.SelfRead? <==> u == MessageById(s, id).userId
    ensures r.1.SelfRead? ==> r.0 == s
    ensures r.1.Recorded? ==> HasRead(r.0, u, id) && forall x :: x in s.unlocks ==> x in r.0.unlocks
  {
    var author := MessageById(s, id).userId;
    if u == author then (s, SelfRead)
    else
      var recorded := RecordRead(s, u, id);
      var s2 := if recorded.1 then IncrementReadCount(recorded.0, id).0 else recorded.0;
      assert s2.messages[IndexFrom(s.messages, id, 0)].id == id;
      var s3 := EvaluateUnlock(s2, u, author);
      (s3, Recorded(HasUnlocked(s3, u, author), MessageById(s3, id).readCount))
  }

  /** One marker of the map view: the message's columns, its author, whether
      the viewer has read it and whether it counts as a top message. */
  datatype MapItem = MapItem(
    id: nat,
    content: string,
    latitude: real,
    longitude: real,
    readCount: nat,
    authorId: nat,
    userHasRead: bool,
    isTopMessage: bool,
    createdAt: nat)

  /** The map view of `day` for an optional viewer: one item per message of the
      day, in table order. A guest has read nothing; a message is top when its
      stored read_count reaches the hot threshold. */
  function MapView(s: State, viewer: Option<nat>, day: nat): (items: seq<MapItem>)
    ensures var today := Today(s.messages, day);
            && |items| == |today|
            && forall i :: 0 <= i < |items| ==>
                 && items[i].id == today[i].id
                 && items[i].authorId == today[i].userId
                 && items[i].readCount == today[i].readCount
                 && (items[i].isTopMessage <==> today[i].readCount >= HotThreshold(s, day))
                 && (items[i].userHasRead <==> viewer.Some? && HasRead(s, viewer.value, today[i].id))
  {
    var today := Today(s.messages, day);
    var threshold := HotThreshold(s, day);
    seq(|today|, i requires 0 <= i < |today| =>
      var m := today[i];
      MapItem(m.id, m.content, m.latitude, m.longitude, m.readCount, m.userId,
              viewer.Some? && HasRead(s, viewer.value, m.id),
              m.readCount >= threshold, m.createdAt))
  }

  // ------------------------------------------------------- helper lemmas

  /** Two message tables that agree on every row's id and author. */
  ghost predicate SameShape(ms1: seq<Message>, ms2: seq<Message>) {
    |ms1| == |ms2| &&
    forall j :: 0 <= j < |ms1| ==> ms1[j].id == ms2[j].id && ms1[j].userId == ms2[j].userId
  }

  lemma {:induction false} ReadsOfCreatorAgree(ms1: seq<Message>, ms2: seq<Message>, rs: seq<Read>, u: nat, c: nat)
    requires forall i :: 0 <= i < |rs| ==> (AuthorIs(ms1, rs[i].messageId, c) <==> AuthorIs(ms2, rs[i].messageId, c))
    ensures ReadsOfCreator(ms1, rs, u, c) == ReadsOfCreator(ms2, rs, u, c)
  {
    if rs != [] {
      ReadsOfCreatorAgree(ms1, ms2, rs[..|rs| - 1], u, c);
    }
  }

  lemma SameShapeAuthors(ms1: seq<Message>, ms2: seq<Message>, rs: seq<Read>, u: nat, c: nat)
    requires SameShape(ms1, ms2)
    ensures ReadsOfCreator(ms1, rs, u, c) == ReadsOfCreator(ms2, rs, u, c)
  {
    forall i | 0 <= i < |rs|
      ensures AuthorIs(ms1, rs[i].messageId, c) <==> AuthorIs(ms2, rs[i].messageId, c)
    {
      if AuthorIs(ms1, rs[i].messageId, c) {
        var j :| 0 <= j < |ms1| && ms1[j].id == rs[i].messageId && ms1[j].userId == c;
        assert ms2[j].id == rs[i].messageId && ms2[j].userId == c;
      }
      if AuthorIs(ms2, rs[i].messageId, c) {
        var j :| 0 <= j < |ms2| && ms2[j].id == rs[i].messageId && ms2[j].userId == c;
        assert ms1[j].id == rs[i].messageId && ms1[j].userId == c;
      }
    }
    ReadsOfCreatorAgree(ms1, ms2, rs, u, c);
  }

  lemma {:induction false} ReadsOfNone(rs: seq<Read>, id: nat)
    requires forall i :: 0 <= i < |rs| ==> rs[i].messageId != id
    ensures ReadsOf(rs, id) == 0
  {
    if rs != [] {
      ReadsOfNone(rs[..|rs| - 1], id);
    }
  }

  lemma MessageByIdIs(s: State, id: nat, j: nat)
    requires IdsUnique(s.messages)
    requires j < |s.messages| && s.messages[j].id == id
    ensures HasMessage(s, id) && IndexFrom(s.messages, id, 0) == j && MessageById(s, id) == s.messages[j]
  {
  }

  // ------------------------------------------------ invariant preservation

  /** Appending a message with an unused id leaves every existing read pointing
      at the same row, with the same author, and counts no read for it. */
  lemma AppendKeepsReads(s: State, m: Message)
    requires WellFormed(s) && m.id == s.nextId
    ensures forall i :: 0 <= i < |s.messageReads| ==> HasMessage(s.(messages := s.messages + [m]), s.messageReads[i].messageId)
    ensures forall u, c :: ReadsOfCreator(s.messages + [m], s.messageReads, u, c) == ReadsOfCreator(s.messages, s.messageReads, u, c)
    ensures ReadsOf(s.messageReads, m.id) == 0
  {
    var ms := s.messages + [m];
    forall i | 0 <= i < |s.messageReads|
      ensures s.messageReads[i].messageId != m.id
      ensures HasMessage(s.(messages := ms), s.messageReads[i].messageId)
      ensures forall c :: AuthorIs(s.messages, s.messageReads[i].messageId, c) <==> AuthorIs(ms, s.messageReads[i].messageId, c)
    {
      var j :| 0 <= j < |s.messages| && s.messages[j].id == s.messageReads[i].messageId;
      assert ms[j] == s.messages[j];
      forall c ensures AuthorIs(s.messages, s.messageReads[i].messageId, c) <==> AuthorIs(ms, s.messageReads[i].messageId, c) {
        if AuthorIs(ms, s.messageReads[i].messageId, c) {
          var k :| 0 <= k < |ms| && ms[k].id == s.messageReads[i].messageId && ms[k].userId == c;
          assert k < |s.messages| && s.messages[k] == ms[k];
        }
      }
    }
    forall u, c ensures ReadsOfCreator(ms, s.messageReads, u, c) == ReadsOfCreator(s.messages, s.messageReads, u, c) {
      ReadsOfCreatorAgree(s.messages, ms, s.messageReads, u, c);
    }
    ReadsOfNone(s.messageReads, m.id);
  }

  /** Posting keeps the invariant. */
  lemma PostPreservesConsistent(s: State, author: nat, data: MessageData, now: nat)
    requires Consistent(s)
    ensures Consistent(Post(s, author, data, now).0)
  {
    if CanPostMessageToday(s.messages, author, DayOf(now)) {
      var t := Post(s, author, data, now).0;
      var m := t.messages[|s.messages|];
      assert t.messages == s.messages + [m] && m.id == s.nextId && m.readCount == 0;
      AppendKeepsReads(s, m);
      assert WellFormed(t);
      assert CountersMatch(t);
      assert UnlocksEarned(t);
    }
  }

  /** Helper: appending a read row adds one to a pair's count exactly when the
      row is that viewer's and its message is that creator's. */
  lemma ReadsOfCreatorAfterRecord(ms: seq<Message>, rs: seq<Read>, r: Read, u: nat, c: nat)
    ensures ReadsOfCreator(ms, rs + [r], u, c)
         == ReadsOfCreator(ms, rs, u, c) + (if r.userId == u && AuthorIs(ms, r.messageId, c) then 1 else 0)
  {
    assert (rs + [r])[..|rs|] == rs;
  }

  /** The state after a new read has been recorded and counted. */
  ghost predicate CountedRead(s: State, u: nat, id: nat, s2: State) {
    && HasMessage(s, id)
    && !HasRead(s, u, id)
    && s2 == IncrementReadCount(RecordRead(s, u, id).0, id).0
  }

  lemma CountedReadWellFormed(s: State, u: nat, id: nat, s2: State)
    requires WellFormed(s) && CountedRead(s, u, id, s2)
    ensures WellFormed(s2)
  {
    var j0 := IndexFrom(s.messages, id, 0);
    forall i | 0 <= i < |s2.messageReads| ensures HasMessage(s2, s2.messageReads[i].messageId) {
      var mid := s2.messageReads[i].messageId;
      if i < |s.messageReads| {
        var j :| 0 <= j < |s.messages| && s.messages[j].id == mid;
        assert s2.messages[j].id == mid;
      } else {
        assert s2.messages[j0].id == id;
      }
    }
  }

  lemma CountedReadCountersMatch(s: State, u: nat, id: nat, s2: State)
    requires CountersMatch(s) && CountedRead(s, u, id, s2)
    ensures CountersMatch(s2)
  {
    forall j | 0 <= j < |s2.messages|
      ensures s2.messages[j].readCount == ReadsOf(s2.messageReads, s2.messages[j].id)
    {
      assert s2.messageReads[..|s.messageReads|] == s.messageReads;
    }
  }

  lemma CountedReadNoSelfReads(s: State, u: nat, id: nat, s2: State)
    requires IdsUnique(s.messages) && NoSelfReads(s) && CountedRead(s, u, id, s2)
    requires u != MessageById(s, id).userId
    ensures NoSelfReads(s2)
  {
    forall i, j | 0 <= i < |s2.messageReads| && 0 <= j < |s2.messages| && s2.messages[j].id == s2.messageReads[i].messageId
      ensures s2.messages[j].userId != s2.messageReads[i].userId
    {
      if i == |s.messageReads| {
        MessageByIdIs(s, id, j);
      }
    }
  }

  lemma CountedReadUnlocksEarned(s: State, u: nat, id: nat, s2: State)
    requires UnlocksEarned(s) && CountedRead(s, u, id, s2)
    ensures UnlocksEarned(s2)
  {
    assert SameShape(s.messages, s2.messages);
    forall i | 0 <= i < |s2.unlocks|
      ensures ReadsOfCreator(s2.messages, s2.messageReads, s2.unlocks[i].userId, s2.unlocks[i].unlockedUserId) >= UnlockThreshold
    {
      var v, c := s2.unlocks[i].userId, s2.unlocks[i].unlockedUserId;
      ReadsOfCreatorAfterRecord(s.messages, s.messageReads, Read(u, id), v, c);
      SameShapeAuthors(s.messages, s2.messages, s2.messageReads, v, c);
    }
  }

  /** Reading keeps the invariant. */
  lemma ReadPreservesConsistent(s: State, u: nat, id: nat)
    requires Consistent(s) && HasMessage(s, id)
    ensures Consistent(ReadMessage(s, u, id).0)
  {
    var author := MessageById(s, id).userId;
    if u != author {
      var recorded := RecordRead(s, u, id);
      if recorded.1 {
        var s2 := IncrementReadCount(recorded.0, id).0;
        assert CountedRead(s, u, id, s2);
        CountedReadWellFormed(s, u, id, s2);
        CountedReadCountersMatch(s, u, id, s2);
        CountedReadNoSelfReads(s, u, id, s2);
        CountedReadUnlocksEarned(s, u, id, s2);
        EvaluateUnlockPreservesConsistent(s2, u, author);
      } else {
        EvaluateUnlockPreservesConsistent(recorded.0, u, author);
      }
    }
  }

  lemma EvaluateUnlockPreservesConsistent(s: State, u: nat, c: nat)
    requires Consistent(s)
    ensures Consistent(EvaluateUnlock(s, u, c))
  {
  }

  // ------------------------------------------------------ read properties

  /** A self-read changes nothing. */
  lemma SelfReadChangesNothing(s: State, id: nat)
    requires HasMessage(s, id)
    ensures ReadMessage(s, MessageById(s, id).userId, id) == (s, SelfRead)
  {
  }

  /** After a read by someone other than the author, the message keeps its
      row, its id and its author; its read_count went up by one exactly when
      the read was new, and the read row exists. */
  lemma ReadKeepsRow(s: State, u: nat, id: nat)
    requires HasMessage(s, id)
    requires u != MessageById(s, id).userId
    ensures var j := IndexFrom(s.messages, id, 0);
            var t := ReadMessage(s, u, id).0;
            && |t.messages| == |s.messages|
            && t.messages[j].id == id && t.messages[j].userId == s.messages[j].userId
            && t.messages[j].readCount == s.messages[j].readCount + (if HasRead(s, u, id) then 0 else 1)
            && HasRead(t, u, id)
            && t.messageReads == (if HasRead(s, u, id) then s.messageReads else s.messageReads + [Read(u, id)])
  {
  }

  /** Reading the same message twice records one row and raises read_count by
      exactly one in total (by none when the user had already read it). */
  lemma ReadTwiceCountsOnce(s: State, u: nat, id: nat)
    requires Consistent(s) && HasMessage(s, id)
    requires u != MessageById(s, id).userId
    ensures HasMessage(ReadMessage(s, u, id).0, id)
    ensures var s1 := ReadMessage(s, u, id).0;
            var s2 := ReadMessage(s1, u, id).0;
            && HasRead(s1, u, id)
            && s2.messageReads == s1.messageReads
            && s1.messageReads == (if HasRead(s, u, id) then s.messageReads else s.messageReads + [Read(u, id)])
            && ReadMessage(s1, u, id).1.newReadCount == MessageById(s, id).readCount + (if HasRead(s, u, id) then 0 else 1)
  {
    var j := IndexFrom(s.messages, id, 0);
    ReadKeepsRow(s, u, id);
    ReadPreservesConsistent(s, u, id);
    var s1 := ReadMessage(s, u, id).0;
    MessageByIdIs(s1, id, j);
    ReadKeepsRow(s1, u, id);
    ReadPreservesConsistent(s1, u, id);
    var s2 := ReadMessage(s1, u, id).0;
    MessageByIdIs(s2, id, j);
    assert ReadMessage(s1, u, id).1.newReadCount == s2.messages[j].readCount;
  }

  /** The unlock reported by a read: already unlocked before, or the viewer now
      has two reads of the author's messages. Never for oneself. */
  lemma ReadReportsUnlock(s: State, u: nat, id: nat)
    requires HasMessage(s, id)
    requires u != MessageById(s, id).userId
    ensures var c := MessageById(s, id).userId;
            var after := RecordRead(s, u, id).0;
            var unlocked := ReadMessage(s, u, id).1.profileUnlocked;
            unlocked <==> HasUnlocked(s, u, c) || ReadsOfCreator(after.messages, after.messageReads, u, c) >= UnlockThreshold
  {
    var c := MessageById(s, id).userId;
    var recorded := RecordRead(s, u, id);
    if recorded.1 {
      var s2 := IncrementReadCount(recorded.0, id).0;
      assert SameShape(recorded.0.messages, s2.messages);
      SameShapeAuthors(recorded.0.messages, s2.messages, s2.messageReads, u, c);
    }
  }

  /** Unlock rows are only ever appended: a granted unlock is permanent. */
  lemma UnlocksOnlyGrow(s: State, u: nat, id: nat, author: nat, data: MessageData, now: nat)
    requires HasMessage(s, id)
    ensures var t := ReadMessage(s, u, id).0;
            |s.unlocks| <= |t.unlocks| && t.unlocks[..|s.unlocks|] == s.unlocks
    ensures Post(s, author, data, now).0.unlocks == s.unlocks
  {
  }

  /** A new read of c's message by u raises u's count of c's messages by one, so
      the unlock fires exactly on the second distinct message read. */
  lemma NewReadAddsOne(s: State, u: nat, id: nat)
    requires Consistent(s) && HasMessage(s, id)
    requires !HasRead(s, u, id)
    ensures var c := MessageById(s, id).userId;
            var after := RecordRead(s, u, id).0;
            ReadsOfCreator(after.messages, after.messageReads, u, c) == ReadsOfCreator(s.messages, s.messageReads, u, c) + 1
  {
    var j := IndexFrom(s.messages, id, 0);
    ReadsOfCreatorAfterRecord(s.messages, s.messageReads, Read(u, id), u, s.messages[j].userId);
  }

  // ------------------------------------------------------ post properties

  /** Over quota: 429-style rejection with nothing stored. Otherwise exactly one
      message is added, with the given attributes, a fresh id and no reads, and
      the allowance left is one less than before the post. */
  lemma PostOutcomeSpec(s: State, author: nat, data: MessageData, now: nat)
    ensures var r := Post(s, author, data, now);
            var before := PostedOn(s.messages, author, DayOf(now));
            if before >= DailyLimit then r == (s, QuotaExceeded)
            else
              && r.1.Posted?
              && r.0.messages == s.messages + [r.1.message]
              && r.0.messageReads == s.messageReads && r.0.unlocks == s.unlocks
              && r.1.message == Message(s.nextId, author, data.content, data.latitude, data.longitude, data.tag, 0, now)
              && r.1.remaining == DailyLimit - 1 - before
  {
    var r := Post(s, author, data, now);
    if PostedOn(s.messages, author, DayOf(now)) < DailyLimit {
      assert r.0.messages[..|r.0.messages| - 1] == s.messages;
    }
  }

  // ---------------------------------------------------- ranking properties

  /** The hot threshold is today's rank-9 reads value (when there are ten). */
  lemma HotThresholdIsRankValue(s: State, day: nat)
    requires |Today(s.messages, day)| > HotRank
    ensures Ordering.IsRankValue(Today(s.messages, day), ReadsKey(s.messageReads), HotRank, HotThreshold(s, day))
  {
    var today, key := Today(s.messages, day), ReadsKey(s.messageReads);
    var ranked := Ordering.SortDesc(today, key);
    var t := HotThreshold(s, day);
    Ordering.SortedRankValue(ranked, key, HotRank);
    Ordering.CountPermutation(ranked, today, key, t);
    Ordering.CountPermutation(ranked, today, key, t + 1);
  }

  /** Ties in reads_count are ordered arbitrarily by the database; the threshold
      is the same for every descending ordering of today's messages. */
  lemma HotThresholdIgnoresTies(s: State, day: nat, p: seq<Message>)
    requires multiset(p) == multiset(Today(s.messages, day))
    requires Ordering.SortedDesc(p, ReadsKey(s.messageReads))
    ensures HotThreshold(s, day) == if |p| > HotRank then ReadsOf(s.messageReads, p[HotRank].id) else 0
  {
    var today, key := Today(s.messages, day), ReadsKey(s.messageReads);
    var ranked := Ordering.SortDesc(today, key);
    assert |p| == |multiset(p)| == |today|;
    if |p| > HotRank {
      Ordering.RankValueOfAnyOrdering(today, ranked, p, key, HotRank);
    }
  }

  /** With consistent counters, a message of today is flagged as top
      (read_count >= threshold) exactly when fewer than ten of today's messages
      have strictly more reads. */
  lemma TopFlagMeansFewerThanTenAhead(s: State, day: nat, m: Message)
    requires CountersMatch(s)
    requires m in Today(s.messages, day)
    ensures m.readCount >= HotThreshold(s, day)
        <==> Ordering.CountAtLeast(Today(s.messages, day), ReadsKey(s.messageReads), ReadsOf(s.messageReads, m.id) + 1) <= HotRank
  {
    var today, key := Today(s.messages, day), ReadsKey(s.messageReads);
    assert m in s.messages;
    var j :| 0 <= j < |s.messages| && s.messages[j] == m;
    assert m.readCount == ReadsOf(s.messageReads, m.id);
    var t := HotThreshold(s, day);
    if |today| > HotRank {
      HotThresholdIsRankValue(s, day);
      Ordering.ReachesRankValue(today, key, HotRank, t, ReadsOf(s.messageReads, m.id));
    } else {
      assert t == 0;
      Ordering.CountUpperBound(today, key, ReadsOf(s.messageReads, m.id) + 1, |today|);
    }
  }

  /** With fewer than ten messages today the threshold is 0, so every marker
      of the map view is flagged as top; a guest sees no marker as read. */
  lemma FewerThanTenAllTop(s: State, viewer: Option<nat>, day: nat)
    ensures |Today(s.messages, day)| <= HotRank ==>
              forall i :: 0 <= i < |MapView(s, viewer, day)| ==> MapView(s, viewer, day)[i].isTopMessage
    ensures viewer.None? ==> forall i :: 0 <= i < |MapView(s, viewer, day)| ==> !MapView(s, viewer, day)[i].userHasRead
  {
  }

  // --------------------------------------------------- distinct vs. rows

  /** With the unique key on message_reads, counting u's distinct read messages
      of c (User::hasReadUsersMessages) and counting u's rows for c's messages
      (getReadCountByUser) agree. */
  lemma {:induction false} DistinctReadsEqualRows(ms: seq<Message>, rs: seq<Read>, u: nat, c: nat)
    requires ReadsUnique(rs)
    ensures HasReadUsersMessages(ms, rs, u, c) == ReadsOfCreator(ms, rs, u, c)
  {
    if rs != [] {
      var init, last := rs[..|rs| - 1], rs[|rs| - 1];
      assert ReadsUnique(init);
      DistinctReadsEqualRows(ms, init, u, c);
      var before := ReadIdsOfCreator(ms, init, u, c);
      var counts := last.userId == u && AuthorIs(ms, last.messageId, c);
      assert ReadIdsOfCreator(ms, rs, u, c) == before + (if counts then {last.messageId} else {});
      assert ReadsOfCreator(ms, rs, u, c) == ReadsOfCreator(ms, init, u, c) + (if counts then 1 else 0);
      if counts {
        assert last.messageId !in before by {
          forall i | 0 <= i < |init| ensures init[i] != last {
            assert init[i] == rs[i];
          }
        }
      }
    }
  }
}

=== FILE: service_result.dfy ===
/** The result array both services return instead of throwing: a success
    flag, an optional message, an optional payload and an HTTP status. */
module ServiceResults {
  import opened Wrappers

  datatype ServiceResult<D> = ServiceResult(success: bool, message: Option<string>, data: Option<D>, status: nat)
}

=== FILE: storage.dfy ===
/** The database tables the message rules write, as one object whose fields
    the operations update in place. Each primitive is the Eloquent call both
    implementations issue, specified by the matching step of `Rules`. */
module Storage {
  import opened MessageModel
  import Rules

  class Tables {
    var messages: seq<Message>
    var messageReads: seq<Read>
    var unlocks: seq<Unlock>
    var nextId: nat

    /** The abstract value of the tables. */
    function State(): Rules.State
      reads this
    {
      Rules.State(messages, messageReads, unlocks, nextId)
    }

    constructor ()
      ensures State() == Rules.Empty
    {
      messages, messageReads, unlocks, nextId := [], [], [], 1;
    }

    /** Message::create: one row with the next id and read_count 0. */
    method InsertMessage(author: nat, data: MessageData, now: nat) returns (m: Message)
      modifies this
      ensures (State(), m) == Rules.InsertMessage(old(State()), author, data, now)
    {
      m := Message(nextId, author, data.content, data.latitude, data.longitude, data.tag, 0, now);
      messages := messages + [m];
      nextId := nextId + 1;
    }

    /** MessageRead::firstOrCreate; `created` is wasRecentlyCreated. */
    method FirstOrCreateRead(u: nat, id: nat) returns (created: bool)
      modifies this
      ensures (State(), created) == Rules.RecordRead(old(State()), u, id)
    {
      created := Read(u, id) !in messageReads;
      if created {
        messageReads := messageReads + [Read(u, id)];
      }
    }

    /** `where('id', id)->increment('read_count')`; true iff a row was affected. */
    method IncrementReadCount(id: nat) returns (affected: bool)
      modifies this
      ensures (State(), affected) == Rules.IncrementReadCount(old(State()), id)
    {
      affected := Rules.HasMessage(State(), id);
      messages := Rules.BumpReadCount(messages, id);
    }

    /** An insert into unlocked_profiles. */
    method InsertUnlock(u: nat, c: nat)
      modifies this
      ensures State() == Rules.InsertUnlock(old(State()), u, c)
    {
      unlocks := unlocks + [Unlock(u, c)];
    }
  }
}

=== FILE: store_message_request.dfy ===
/** The validation rules for a new message: the rule table of
    app/Http/Requests/Message/StoreMessageRequest.php and the inline table of
    the routed Api controller, both read by one model of Laravel's
    `required`, `string`, `numeric`, `max`, `between` and `nullable`. */
module StoreMessageRequest {
  import opened Wrappers
  import opened MessageModel

  /** A decoded request value: JSON null, a string, a number, or anything else
      (a boolean, an array, an object). */
  datatype Value = Null | Str(s: string) | Num(x: real) | Other

  /** The four inputs a new message reads; None is a key absent from the request. */
  datatype Input = Input(content: Option<Value>, latitude: Option<Value>, longitude: Option<Value>, tag: Option<Value>)

  datatype Field = Content | Latitude | Longitude | Tag

  /** `between:lo,hi` on a number: lo <= x <= hi. */
  datatype Range = Range(lo: real, hi: real)

  /** One rule table: content `required|string|max:contentMax`; latitude and
      longitude `required|numeric`, plus `between` when a range is given; tag
      `nullable|string|max:tagMax`. */
  datatype RuleTable = RuleTable(contentMax: nat, latitude: Option<Range>, longitude: Option<Range>, tagMax: nat)

  /** StoreMessageRequest::rules */
  const FormRequestRules: RuleTable := RuleTable(500, Some(Range(-90.0, 90.0)), Some(Range(-180.0, 180.0)), 50)

  datatype Validation = Valid(data: MessageData) | Invalid(errors: seq<Field>)

  /** The characters PHP's trim removes. */
  predicate IsTrimmed(c: char) {
    c == ' ' || c == '\t' || c == '\n' || c == '\r' || c == '\0' || c == '\U{000B}'
  }

  predicate Blank(s: string) {
    forall i :: 0 <= i < |s| ==> IsTrimmed(s[i])
  }

  /** Absent, null or a blank string: `required` fails on it and every rule
      that is not implicit is skipped for it. */
  predicate Missing(v: Option<Value>) {
    v.None? || v.value.Null? || (v.value.Str? && Blank(v.value.s))
  }

  /** `required|string|max:n` */
  predicate RequiredString(v: Option<Value>, n: nat) {
    !Missing(v) && v.value.Str? && |v.value.s| <= n
  }

  /** `required|numeric`, followed by `between` when a range is given. */
  predicate RequiredNumber(v: Option<Value>, range: Option<Range>) {
    !Missing(v) && v.value.Num? && (range.Some? ==> range.value.lo <= v.value.x <= range.value.hi)
  }

  /** `nullable|string|max:n` */
  predicate NullableString(v: Option<Value>, n: nat) {
    Missing(v) || (v.value.Str? && |v.value.s| <= n)
  }

  predicate Passes(t: RuleTable, input: Input, f: Field)
    ensures f == Content && Missing(input.content) ==> !Passes(t, input, f)
    ensures f == Latitude && Missing(input.latitude) ==> !Passes(t, input, f)
    ensures f == Longitude && Missing(input.longitude) ==> !Passes(t, input, f)
    ensures f == Tag && Missing(input.tag) ==> Passes(t, input, f)
    ensures f == Content && input.content.Some? && input.content.value.Num? ==> !Passes(t, input, f)
    ensures f == Latitude && input.latitude.Some? && input.latitude.value.Str? ==> !Passes(t, input, f)
  {
    match f
    case Content => RequiredString(input.content, t.contentMax)
    case Latitude => RequiredNumber(input.latitude, t.latitude)
    case Longitude => RequiredNumber(input.longitude, t.longitude)
    case Tag => NullableString(input.tag, t.tagMax)
  }

  /** The fields whose rules fail, in the table's order. */
  function Failing(t: RuleTable, input: Input): (errors: seq<Field>)
    ensures forall f :: f in errors <==> !Passes(t, input, f)
    ensures |errors| <= 4
  {
    (if Passes(t, input, Content) then [] else [Content])
    + (if Passes(t, input, Latitude) then [] else [Latitude])
    + (if Passes(t, input, Longitude) then [] else [Longitude])
    + (if Passes(t, input, Tag) then [] else [Tag])
  }

  /** The validated attributes, or every failing field. A tag that is absent
      or null becomes no tag; a blank tag skips its rules and is kept as sent. */
  function Validate(t: RuleTable, input: Input): (r: Validation)
    ensures r.Valid? <==> forall f :: Passes(t, input, f)
    ensures r.Invalid? ==> r.errors != [] && forall f :: f in r.errors <==> !Passes(t, input, f)
    ensures r.Valid? ==>
      && input.content == Some(Str(r.data.content))
      && !Blank(r.data.content) && |r.data.content| <= t.contentMax
      && input.latitude == Some(Num(r.data.latitude))
      && input.longitude == Some(Num(r.data.longitude))
      && (t.latitude.Some? ==> t.latitude.value.lo <= r.data.latitude <= t.latitude.value.hi)
      && (t.longitude.Some? ==> t.longitude.value.lo <= r.data.longitude <= t.longitude.value.hi)
      && (r.data.tag.Some? ==> input.tag == Some(Str(r.data.tag.value)) && (Blank(r.data.tag.value) || |r.data.tag.value| <= t.tagMax))
      && (r.data.tag.Some? <==> input.tag.Some? && input.tag.value.Str?)
  {
    var errors := Failing(t, input);
    if errors != [] then Invalid(errors)
    else
      assert Passes(t, input, Content) && Passes(t, input, Latitude) && Passes(t, input, Longitude) && Passes(t, input, Tag);
      var tag := if input.tag.Some? && input.tag.value.Str? then Some(input.tag.value.s) else None;
      Valid(MessageData(input.content.value.s, input.latitude.value.x, input.longitude.value.x, tag))
  }

  /** The form request's rules accept only coordinates on the globe. */
  lemma FormRequestKeepsCoordinatesOnGlobe(input: Input)
    requires Validate(FormRequestRules, input).Valid?
    ensures var d := Validate(FormRequestRules, input).data;
            -90.0 <= d.latitude <= 90.0 && -180.0 <= d.longitude <= 180.0 && |d.content| <= 500
  {
  }

  /** Dropping the range checks from a table only admits more requests, and
      admits them with the same attributes. */
  lemma {:induction false} WithoutRangesAdmitsMore(t: RuleTable, input: Input)
    requires Validate(t, input).Valid?
    ensures Validate(t.(latitude := None, longitude := None), input) == Validate(t, input)
  {
    var u := t.(latitude := None, longitude := None);
    assert forall f :: Passes(t, input, f) ==> Passes(u, input, f);
    assert Failing(u, input) == [];
  }
}

=== FILE: user_controller.dfy ===
/** UserController (app/Http/Controllers/UserController.php): the public
    profile and the message feeds. A user's feed is visible only to users
    they follow mutually; one's own feed is always visible. */
module UserController {
  import opened Wrappers
  import opened MessageModel
  import Ordering
  import Storage
  import Graph = FollowRepository

  /** A users row with the columns the app reads, credentials included. */
  datatype User = User(id: nat, name: string, email: string, password: string, nickname: Option<string>, bio: Option<string>)

  /** What `show` returns. */
  datatype PublicProfile = PublicProfile(id: nat, name: string, nickname: Option<string>, bio: Option<string>)

  /** show: only id, name, nickname and bio leave the server. */
  function Show(u: User): (p: PublicProfile)
    ensures p.id == u.id && p.name == u.name && p.nickname == u.nickname && p.bio == u.bio
  {
    PublicProfile(u.id, u.name, u.nickname, u.bio)
  }

  /** The profile does not depend on the email or the password. */
  lemma ShowHidesCredentials(u: User, email: string, password: string)
    ensures Show(u.(email := email, password := password)) == Show(u)
  {
  }

  /** All of u's messages, newest first. */
  function NewestFirst(ms: seq<Message>, u: nat): (r: seq<Message>)
    ensures forall m :: m in r <==> m in ms && m.userId == u
    ensures multiset(r) == multiset(ByAuthor(ms, u))
    ensures Ordering.SortedDesc(r, CreatedKey())
  {
    var mine := ByAuthor(ms, u);
    var r := Ordering.SortDesc(mine, CreatedKey());
    assert forall m :: m in r <==> m in multiset(mine);
    r
  }

  datatype FeedReply = NotAuthorized | Feed(messages: seq<Message>)

  /** HTTP status of a feed reply. */
  function FeedStatus(r: FeedReply): nat {
    if r.NotAuthorized? then 403 else 200
  }

  class UserController {
    const tables: Storage.Tables
    const follows: Graph.FollowRepository

    constructor (tables: Storage.Tables, follows: Graph.FollowRepository)
      ensures this.tables == tables && this.follows == follows
    {
      this.tables := tables;
      this.follows := follows;
    }

    /** getMessages: 403 unless viewer and target follow each other;
        otherwise every message of the target, of any day, newest first. */
    function GetMessages(viewer: nat, target: nat): (r: FeedReply)
      reads tables, follows
      ensures r.NotAuthorized? <==> !(follows.IsFollowing(viewer, target) && follows.IsFollowing(target, viewer))
      ensures r.Feed? ==> forall m :: m in r.messages <==> m in tables.messages && m.userId == target
      ensures r.Feed? ==> multiset(r.messages) == multiset(ByAuthor(tables.messages, target))
      ensures r.Feed? ==> Ordering.SortedDesc(r.messages, CreatedKey())
    {
      if !follows.IsMutualFollow(viewer, target) then NotAuthorized
      else Feed(NewestFirst(tables.messages, target))
    }

    /** getMyMessages: every message of the caller, newest first, ungated. */
    function GetMyMessages(viewer: nat): (r: seq<Message>)
      reads tables
      ensures forall m :: m in r <==> m in tables.messages && m.userId == viewer
      ensures multiset(r) == multiset(ByAuthor(tables.messages, viewer))
      ensures Ordering.SortedDesc(r, CreatedKey())
    {
      NewestFirst(tables.messages, viewer)
    }
  }

  /** The gate is symmetric: a can see b's feed exactly when b can see a's. */
  lemma FeedGateIsSymmetric(c: UserController, a: nat, b: nat)
    ensures c.GetMessages(a, b).Feed? <==> c.GetMessages(b, a).Feed?
  {
  }
}

=== FILE: user_model.dfy ===
/** The User model's rule methods (app/Models/User.php): the daily posting
    quota, the distinct-reads count behind profile unlocking, and the
    unlocked_profiles relation. */
module UserModel {
  import opened MessageModel

  /** Messages a user may post per calendar day; no per-user override exists. */
  const DailyLimit: nat := 2

  /** Number of messages by `u` whose created_at falls on `day`. */
  function PostedOn(ms: seq<Message>, u: nat, day: nat): nat {
    if ms == [] then 0
    else
      var last := ms[|ms| - 1];
      PostedOn(ms[..|ms| - 1], u, day) + (if last.userId == u && DayOf(last.createdAt) == day then 1 else 0)
  }

  /** canPostMessageToday */
  function CanPostMessageToday(ms: seq<Message>, u: nat, day: nat): (ok: bool)
    ensures ok <==> PostedOn(ms, u, day) < DailyLimit
  {
    PostedOn(ms, u, day) < 2
  }

  /** messagesTodayRemaining: max(0, 2 - postedToday). */
  function MessagesTodayRemaining(ms: seq<Message>, u: nat, day: nat): (r: nat)
    ensures r <= DailyLimit
    ensures r > 0 <==> CanPostMessageToday(ms, u, day)
    ensures PostedOn(ms, u, day) <= DailyLimit ==> r + PostedOn(ms, u, day) == DailyLimit
  {
    var n := PostedOn(ms, u, day);
    if 2 - n > 0 then 2 - n else 0
  }

  /** The quota only looks at the messages dated `day`. */
  lemma {:induction false} PostedOnlyCountsThatDay(ms: seq<Message>, u: nat, day: nat)
    ensures PostedOn(ms, u, day) == PostedOn(Today(ms, day), u, day)
  {
    if ms != [] {
      var init, last := ms[..|ms| - 1], ms[|ms| - 1];
      PostedOnlyCountsThatDay(init, u, day);
      if DayOf(last.createdAt) == day {
        assert Today(ms, day) == Today(init, day) + [last];
        assert (Today(init, day) + [last])[..|Today(ms, day)| - 1] == Today(init, day);
      } else {
        assert Today(ms, day) == Today(init, day);
      }
    }
  }

  /** Two tables with the same messages on `day` give every user the same
      allowance that day: posts on other days never reduce it. */
  lemma RemainingIgnoresOtherDays(ms1: seq<Message>, ms2: seq<Message>, u: nat, day: nat)
    requires Today(ms1, day) == Today(ms2, day)
    ensures MessagesTodayRemaining(ms1, u, day) == MessagesTodayRemaining(ms2, u, day)
  {
    PostedOnlyCountsThatDay(ms1, u, day);
    PostedOnlyCountsThatDay(ms2, u, day);
  }

  /** The distinct message ids among u's reads of messages authored by c. */
  function ReadIdsOfCreator(ms: seq<Message>, rs: seq<Read>, u: nat, c: nat): (ids: set<nat>)
    ensures forall x :: x in ids <==> Read(u, x) in rs && AuthorIs(ms, x, c)
  {
    if rs == [] then {}
    else
      var init, last := rs[..|rs| - 1], rs[|rs| - 1];
      var before := ReadIdsOfCreator(ms, init, u, c);
      assert rs == init + [last];
      before + (if last.userId == u && AuthorIs(ms, last.messageId, c) then {last.messageId} else {})
  }

  /** hasReadUsersMessages: how many distinct messages of `c` user `u` has read.
      It counts ids, so it never exceeds the number of read rows. */
  function HasReadUsersMessages(ms: seq<Message>, rs: seq<Read>, u: nat, c: nat): (n: nat)
    ensures n <= |rs|
    ensures n == 0 <==> forall x :: Read(u, x) in rs ==> !AuthorIs(ms, x, c)
  {
    ReadIdsBounded(ms, rs, u, c);
    var ids := ReadIdsOfCreator(ms, rs, u, c);
    assert ids != {} ==> exists x :: x in ids;
    |ids|
  }

  lemma {:induction false} ReadIdsBounded(ms: seq<Message>, rs: seq<Read>, u: nat, c: nat)
    ensures |ReadIdsOfCreator(ms, rs, u, c)| <= |rs|
  {
    if rs != [] {
      ReadIdsBounded(ms, rs[..|rs| - 1], u, c);
    }
  }

  /** The unlockedProfiles relation: whose profiles `u` has unlocked. */
  function UnlockedProfiles(us: seq<Unlock>, u: nat): (r: set<nat>)
    ensures forall c :: c in r <==> Unlock(u, c) in us
  {
    set x | x in us && x.userId == u :: x.unlockedUserId
  }
}

=== FILE: wrappers.dfy ===
/** Optional values: a nullable column or an absent input field. */
module Wrappers {

  datatype Option<+T> = None | Some(value: T)
}
